=== FILE: README.md ===
# gcsproxy in Dafny

A functional model of the decision logic of gcsproxy, a reverse proxy that serves the objects
of one Google Cloud Storage bucket over HTTP and can put an OpenID Connect login or HTTP Basic
authentication in front of them.

What is modelled:

- **Access tokens** (`pkg/accesstoken`): the audience wire codec of section 4.1.3 of RFC 7519
  (a one-element audience is a bare string, anything else an array), the expiry rule of
  section 4.1.4 (now must be strictly before `exp`; an `exp` too large for `time.Unix` wraps to
  a long-past time and counts as expired), signing with HS256 and `ParseAccessToken`
  (HMAC only, audience membership, then issuer equality). The golang-jwt parsing order is
  modelled in `Jwt.ParseWithClaims`; serialisation and the MAC are an oracle (`Jwt.Jose`).
- **The OIDC handshake** (`internal/domain/model/oidc.go`): provider discovery and endpoint
  selection, the code exchange and ID-token checks (the identity provider is an oracle,
  `Oidc.Upstream`), the handshake session token (`state` plus redirect path, section 10.12 of
  RFC 6749), and the access session minted after login.
- **The OIDC routes** (`internal/interface/http`): `Login` and `Callback` as functions from a
  request to cookies plus an outcome, and the error-to-status mapping, whose
  `ErrInvalidRedirectURL` case writes nothing.
- **The gates** (`internal/infrastructure/http/middleware`): the cookie-token gate, its verbatim
  duplicate, and the HTTP Basic gate of section 2 of RFC 7617, each a function from a request to
  `Pass`, `Redirect302` or `Challenge401`.
- **Object delivery** (`internal/infrastructure/http`): the path-to-key mapping, the single-hop
  fallback to the not-found page, the buffered/chunked choice (chunked only above 32 MiB), the
  header policy (including `private, max-age=60` under authentication), the chunked loop and the
  `io.Copy` branch as loops over the reader's results, and the error-to-status mapping.
- **Utilities and configuration**: `IsTLS`, `RandomString` (the random source is a sequence of
  drawn indices), the configuration defaults, `ValidateOIDC` and `ValidateBasicAuth`.

Time is an integer number of nanoseconds since the Unix epoch; `exp` and `iat` are whole
seconds, and `AccessToken.UnixSeconds` is the floor division `time.Time.Unix` performs.
Round-trip lemmas about tokens assume `Jwt.Sound(jose)`: decoding an encoded token gives it back.

Behaviours of the code worth noting, which the model follows:

- An object is streamed with chunked encoding only when its size is strictly greater than
  32 MiB (`server.go:122`); an object of exactly 32 MiB is buffered.
- Callback does not clear the `_gpso` handshake cookie; it simply expires after 300 seconds.
- The not-found page served as a fallback goes out with status 200, not 404.
- The redirect path in the gate's `Location` header is not escaped.

## Model

| member | source | states |
|---|---|---|
| Audience.Marshal | pkg/accesstoken/accesstoken.go:43-48 | a one-element audience encodes as a bare JSON string, any other length as an array of its strings |
| Audience.AppendStrings | pkg/accesstoken/accesstoken.go:26-33 | an array decodes iff every element is a string; then each is appended in order after the existing entries, otherwise the error names the JSON type of the first non-string |
| Audience.Unmarshal | pkg/accesstoken/accesstoken.go:15-41 | a bare string is appended, `null` leaves the audience unchanged, an array of strings appends each, every other JSON type fails with UnsupportedTypeError |
| Audience.RoundTrip | pkg/accesstoken/accesstoken.go:15-48 | decoding the encoding of any audience into an empty one gives the same list back |
| Audience.BareStringIsSingletonArray | pkg/accesstoken/accesstoken.go:21-33 | decoding a bare string and decoding a one-element array of it have the same effect |
| Audience.ArrayErrorNamesFirstBadElement | pkg/accesstoken/accesstoken.go:27-31 | the UnsupportedTypeError of an array names the type of its first non-string element |
| AccessToken.Valid | pkg/accesstoken/accesstoken.go:58-67 | a rejection always wraps ErrExpiredToken |
| AccessToken.WrapExpiry | pkg/accesstoken/accesstoken.go:60 | time.Unix(exp, 0) holds exp plus the seconds from year 1 to 1970 in an int64, which wraps exactly once when `exp` exceeds MaxExpiry |
| AccessToken.ValidBeforeExpiry | pkg/accesstoken/accesstoken.go:58-67 | at any instant, valid int64 claims expire after the current Unix second |
| AccessToken.ValidIffBeforeExpiry | pkg/accesstoken/accesstoken.go:58-67 | for an int64 instant, int64 claims are valid iff the current second is before `exp` and `exp` is at most MaxExpiry; at `exp` itself the token is expired, and an `exp` that time.Unix wraps is never valid |
| AccessToken.FromJson | pkg/accesstoken/accesstoken.go:50-56 | decoded claims have int64 times, and their audience is what the audience codec decodes from `aud` |
| AccessToken.ClaimsRoundTrip | pkg/accesstoken/accesstoken.go:50-56 | decoding the JSON of any int64-ranged claims gives them back |
| AccessToken.ParseAccessToken | pkg/accesstoken/accesstoken.go:79-110 | a token is accepted iff it is authentic under any HMAC method with the key, its payload decodes to claims that `Valid` accepts at `now`, list the audience and carry the issuer; the accepted claims are that payload |
| AccessToken.SignThenParse | pkg/accesstoken/accesstoken.go:69-110 | sign-then-parse with the same key, the issuer, an audience in the list and a time before an `exp` of at most MaxExpiry returns the signed claims |
| AccessToken.ExpiredTokenRejected | pkg/accesstoken/accesstoken.go:58-88 | a signed token parsed at or after its `exp` second, or at any int64 instant when its `exp` exceeds MaxExpiry, fails with ErrExpiredToken in the chain |
| AccessToken.AudienceCheckedFirst | pkg/accesstoken/accesstoken.go:94-107 | with both audience and issuer wrong, ErrInvalidAudience is reported and ErrInvalidIssuer is not |
| AccessToken.ParseEarlier | pkg/accesstoken/accesstoken.go:58-88 | a token accepted at some instant is accepted with the same claims at every earlier instant |
| Jwt.MethodByName | pkg/accesstoken/accesstoken.go:80-85 | the method registered for an `alg` is HMAC exactly for HS256, HS384 and HS512 |
| Jwt.ParseWithClaims | pkg/accesstoken/accesstoken.go:80-88 | a parse succeeds iff the token is authentic under the key function and its payload decodes and validates, and then returns the decoded claims; an undecodable token is malformed |
| Jwt.SignThenParse | pkg/accesstoken/accesstoken.go:69-85 | a payload signed with HS256 parses back under the same key |
| Jwt.AnyHmacMethodAccepted | pkg/accesstoken/accesstoken.go:80-85 | a token signed with HS256, HS384 or HS512 under the key parses back to its claims: the key function accepts every HMAC method |
| Jwt.NonHmacRejected | pkg/accesstoken/accesstoken.go:80-85 | a non-HMAC token is rejected and the outcome does not depend on the key |
| Jwt.WrongKeyRejected | pkg/accesstoken/accesstoken.go:79-88 | a token signed under one key is refused under a key with a different MAC |
| Oidc.GetOIDCConfig | internal/domain/model/oidc.go:26-55 | discovery runs only when no provider is cached; a successful discovery caches that provider with a verifier for it and the client id, a failed one leaves the cache empty and returns its error unwrapped; explicit endpoints are used iff both URLs are set; client id, secret and scopes are the configured ones and the redirect URL is the base URL plus the callback path |
| Oidc.ValidatedConfigUsesExplicitEndpoints | internal/domain/model/oidc.go:38-46 | a configuration accepted by ValidateOIDC always uses the explicit endpoints |
| Oidc.ExchangeOIDCToken | internal/domain/model/oidc.go:58-86 | the cache is the one GetOIDCConfig leaves; it succeeds iff the configuration, the exchange of this `code`, a string `id_token`, its verification and the `sub` claim all succeed, and the subject is that `sub` |
| Oidc.BadIDTokenIsInvalidIDToken | internal/domain/model/oidc.go:70-78 | a missing, non-string or unverifiable `id_token` fails with ErrInvalidIDToken in the chain |
| Oidc.SessionRoundTrip | internal/domain/model/oidc.go:88-91 | the handshake session's JSON decodes back to it |
| Oidc.NewOIDCSession | internal/domain/model/oidc.go:98-114 | it fails iff the redirect path does not start with "/", with ErrInvalidRedirectURL; a session keeps the path and has a 32-character alphanumeric state |
| Oidc.ParseOIDCSession | internal/domain/model/oidc.go:117-135 | a session parses iff the token is authentic under an HMAC method with the JWT secret and its payload decodes as a session, and then it is that session |
| Oidc.NewThenParseSession | internal/domain/model/oidc.go:93-135 | the token NewOIDCSession returns parses back to its session at any time, since the session never expires |
| Oidc.NonHmacSessionRejected | internal/domain/model/oidc.go:118-124 | a handshake token signed with a non-HMAC method is refused whatever the secret |
| Json.Wrap64 | internal/domain/model/oidc.go:140 | an int64 result is congruent to the mathematical one modulo 2^64, in range, and equal to it when it fits |
| Oidc.CreateAuthSession | internal/domain/model/oidc.go:138-155 | the returned expiry instant falls in the second written as `exp` |
| Oidc.AuthSessionLifetime | internal/domain/model/oidc.go:138-147 | issuer and audience are the base URL, the subject is the id, and `exp` is `iat` plus the configured lifetime |
| Oidc.AuthSessionClaimsInRange | internal/domain/model/oidc.go:139-147 | minted at an int64 instant, both time claims fit their int64 fields and `exp` is small enough for time.Unix |
| Oidc.AuthSessionAccepted | internal/domain/model/oidc.go:138-155 | the token minted at an int64 instant is accepted for the base URL and JWT secret before its `exp` second |
| OidcController.ResponseErrorByRoot | internal/interface/http/util.go:10-20 | by the sentinel at the root of the wrap chain: invalid redirect writes nothing, invalid state is 400 with the error text, invalid hosted domain is 403 with a fixed text, anything else 500 with the error text |
| OidcController.Login | internal/interface/http/oidc_controller.go:29-63 | the cache is the one GetOIDCConfig leaves; the login redirects to the authorization endpoint of that configuration iff the configuration succeeds and the `redirect` parameter starts with "/"; a cookie is set iff the login redirects; an invalid redirect path sets none and writes nothing; the cookie is `_gpso`, Path "/", MaxAge 300, HttpOnly, Secure as IsTLS; the `hd` parameter is sent iff the provider is Google's issuer and a hosted domain is configured, and then carries that domain |
| OidcController.LoginBindsStateToCookie | internal/interface/http/oidc_controller.go:39-62 | the state sent to the provider is the state of the session in the cookie, together with the requested redirect path |
| OidcController.Callback | internal/interface/http/oidc_controller.go:66-108 | a redirect happens iff the `_gpso` session is present and authentic, its state equals the `state` parameter and the exchange of `code` succeeds; it goes to the base URL plus the stored path only after the code exchange succeeded, and sets `_gpsa` (Path "/", HttpOnly) to the access session minted for the exchanged subject, expiring with it |
| OidcController.CallbackExchangeFailed | internal/interface/http/oidc_controller.go:87-92 | with the state confirmed, a failed exchange sets no cookie and answers responseError of the exchange's error |
| OidcController.CallbackStateMismatch | internal/interface/http/oidc_controller.go:80-83 | a state mismatch is 400 "invalid state" with no cookie, and the reply does not depend on the identity provider at all |
| OidcController.CallbackWithoutSession | internal/interface/http/oidc_controller.go:70-79 | a missing or unparseable `_gpso` cookie is a 500 before any call to the identity provider |
| OidcController.ParseErrorRoot | internal/interface/http/oidc_controller.go:75-79 | a parse failure of the handshake token never carries a sentinel the OIDC routes map specially |
| Middleware.AuthOIDC | internal/infrastructure/http/middleware/auth_oidc.go:21-42 | a request passes iff it is skipped or carries a cookie whose token ParseAccessToken accepts; otherwise it is redirected to login, never 401 |
| Middleware.Auth | internal/infrastructure/http/middleware/auth.go:21-42 | the same pass condition; every other request is redirected |
| Middleware.AuthMatchesAuthOIDC | internal/infrastructure/http/middleware/auth.go:21-42 | the duplicate gate decides every request as the OIDC gate does |
| Middleware.MissingCookieLikeRejectedToken | internal/infrastructure/http/middleware/auth_oidc.go:29-39 | a missing cookie and an added cookie holding any token ParseAccessToken rejects get the same redirect |
| Middleware.ValidSessionEarlier | internal/infrastructure/http/middleware/auth_oidc.go:29-35 | a session accepted at some instant is accepted at every earlier one |
| Middleware.AuthBasic | internal/infrastructure/http/middleware/auth_basic.go:16-34 | a request passes iff it is skipped or its Basic credentials are exactly the configured user and password; otherwise 401 with `Basic realm="GCS Proxy"`, never a redirect |
| Middleware.BasicAcceptsConfiguredCredentials | internal/infrastructure/http/middleware/auth_basic.go:24-28 | a Basic header encoding the configured credentials passes |
| Middleware.BasicWithoutHeaderChallenged | internal/infrastructure/http/middleware/auth_basic.go:24-31 | without an Authorization header an unskipped request is challenged, even with empty configured credentials |
| Delivery.SetString | internal/infrastructure/http/util.go:45-49 | a string header is set only to a non-empty value and no other header changes |
| Delivery.SetInt64 | internal/infrastructure/http/util.go:51-55 | an integer header is set only for a positive value, to decimal digits that parse back to it |
| Delivery.DescriptiveHeaders | internal/infrastructure/http/util.go:14-18 | Last-Modified, Content-Type, Content-Disposition and Content-Encoding are each present iff non-empty, with the attribute's value |
| Delivery.WriteHeaders | internal/infrastructure/http/util.go:14-32 | Transfer-Encoding iff chunked; Content-Length iff not chunked and size > 0, parsing back to the size; Cache-Control forced to `private, max-age=60` under oidc or basic, else the backend value when non-empty |
| Delivery.ResponseErrorByRoot | internal/infrastructure/http/util.go:34-43 | object-not-exist is 404 "not found", streaming-unsupported 500 with its text, anything else 500 "internal server error" |
| Delivery.StreamedIsCleanPrefix | internal/infrastructure/http/server.go:132-147 | the chunked body is a prefix of the bytes read before the first Read error, all of them when no Write fails; bytes returned with an error are dropped |
| Delivery.CopiedIsConsumedPrefix | internal/infrastructure/http/server.go:152-154 | the copied body is a prefix of all bytes read, including those returned with the final error, all of them when no Write fails |
| Delivery.LastReadBytes | internal/infrastructure/http/server.go:132-154 | the two branches differ on bytes returned together with io.EOF |
| Delivery.StreamChunked | internal/infrastructure/http/server.go:132-147 | the loop sends exactly the chunked body |
| Delivery.CopyBody | internal/infrastructure/http/server.go:152-154 | the loop sends exactly the copied body |
| Delivery.ServedKey | internal/infrastructure/http/server.go:107-110 | the answering key is the requested key or the not-found page, and it never falls back again |
| Delivery.ServeFile | internal/infrastructure/http/server.go:102-156 | the answer is a 200 iff the served key's attributes and reader are obtained and the object is at most 32 MiB or the writer can flush; a 200 carries writeHeaders of that object (chunked iff its size exceeds 32 MiB) and the body of the chosen branch; error texts are the three fixed ones |
| Delivery.FallbackServesNotFoundPage | internal/infrastructure/http/server.go:107-110 | a missing object with a configured not-found page other than the key is answered as the not-found page is |
| Delivery.MissingEverywhereIs404 | internal/infrastructure/http/server.go:107-112 | when the not-found page is missing too or not configured, the answer is 404 "not found" |
| Delivery.LargeObjectNeedsFlusher | internal/infrastructure/http/server.go:122-127 | a large object on a writer that cannot flush is 500 "streaming unsupported" with no headers |
| Delivery.CompleteDelivery | internal/infrastructure/http/server.go:121-155 | with no failed Write, the chunked branch delivers the bytes before the first Read error and the copy branch those plus the bytes returned with it |
| Server.Startup | internal/infrastructure/http/server.go:39-61 | the server starts iff the selected mode's validator accepts the configuration |
| Server.DirectoryPathNamesMainPage | internal/infrastructure/http/server.go:80-85 | a directory path names the main page inside it, and only its first slash is dropped |
| Server.FilePathNamesItself | internal/infrastructure/http/server.go:80-85 | a rooted path not ending in "/" names the object at the rest of the path |
| Server.DirectoryPathWithoutSuffix | internal/infrastructure/http/server.go:80-85 | without a main-page suffix a directory path names the directory object itself |
| Server.RouteOf | internal/infrastructure/http/server.go:55-76 | only paths outside "/_gcsproxy" name objects, and they name the object key of the path; login and callback are routes only in the oidc mode, matched on the escaped path when one is set, as chi does |
| Server.EscapedOidcRouteNotFound | internal/infrastructure/http/server.go:55-57 | a login or callback path spelled with an escape ("/_gcsproxy/oidc/logi%6E") does not reach the controller and is answered 404 |
| Server.Handle | internal/infrastructure/http/server.go:36-88 | a refused request gets the gate's answer; a passed login or callback route is answered by Login or Callback on the same request; a passed request outside "/_gcsproxy" is answered by serveFile of its path's key; a passed "/_gcsproxy" path other than the OIDC routes gets 404 "404 page not found"; only the OIDC routes touch the provider cache |
| Server.ProxyRoutesUngated | internal/infrastructure/http/server.go:50-52 | paths under "/_gcsproxy" pass the gate in every mode |
| Server.OidcObjectsNeedSession | internal/infrastructure/http/server.go:44-53 | in the oidc mode an object is served iff the first `_gpsa` cookie holds a token ParseAccessToken accepts with the base URL as issuer and audience and the JWT secret as key; otherwise the answer is a 302 to the base URL, the login path, "?redirect=" and the unescaped request path |
| Server.BasicObjectsNeedCredentials | internal/infrastructure/http/server.go:63-69 | in the basic mode an object is served iff the request's Basic credentials equal the configured user and password; otherwise the 401 challenge |
| Server.MintedSessionOpensGate | internal/infrastructure/http/server.go:44-49 | an access session minted by CreateAuthSession opens the oidc gate before its `exp` second |
| Server.CallbackCookieOpensGate | internal/interface/http/oidc_controller.go:99-107 | the cookie Callback sets opens the oidc gate until the second of its expiry |
| Http.FirstCookie | internal/infrastructure/http/middleware/auth_oidc.go:29 | the cookie found is the first one with the name, and it is missing only when no cookie has the name |
| Http.FirstCookieAppend | internal/infrastructure/http/middleware/auth_oidc.go:29 | a cookie appended after others is found when no earlier cookie has its name |
| Http.IsTLSFirstForwardedValueDecides | internal/util/http.go:5-7 | without TLS state only the first X-Forwarded-Proto value decides and only "https" counts; with TLS state every request is secure |
| Http.IsTLSExamples | internal/util/http_test.go:17-46 | TLS state, or "https", makes a request secure; a plain request, "http" and an empty value list do not |
| Http.Cut | internal/infrastructure/http/middleware/auth_basic.go:24 | splitting the decoded credentials at the first colon reassembles them, and fails iff there is no colon |
| Http.BasicAuth | internal/infrastructure/http/middleware/auth_basic.go:24 | credentials are returned iff the Authorization header starts with "Basic " in any letter case and the rest base64-decodes to text holding a colon; they are that text split at its first colon, so the user name contains no colon |
| Http.BasicAuthRoundTrip | internal/infrastructure/http/middleware/auth_basic.go:24 | a Basic header carrying the base64 of "user:pass" yields that user and password |
| Http.NoHeaderNoCredentials | internal/infrastructure/http/middleware/auth_basic.go:24 | without an Authorization header there are no credentials |
| RandomStrings.AlphabetIsAlphanumerics | internal/util/strings.go:10 | the alphabet has 62 characters, each an ASCII digit or letter, and holds every one of them |
| RandomStrings.RandomString | internal/util/strings.go:18-24 | the result has length n and its i-th character is the alphabet's character at the i-th drawn index, so every character is alphanumeric |
| RandomStrings.EveryAlphanumericStringReachable | internal/util/strings.go:18-24 | every alphanumeric string of length n is produced by some sequence of draws |
| Config.ValidateOIDC | internal/config/config.go:109-112 | outside the oidc mode the validator accepts everything |
| Config.ValidateOIDCReportsFirstMissing | internal/config/config.go:114-143 | in the oidc mode it reports the first empty setting in the order issuer, authorize URL, token URL, client id, client secret, JWT secret, base URL, and succeeds iff all seven are set |
| Config.ValidateBasicAuth | internal/config/config.go:145-159 | it accepts iff the mode is not basic or both user and password are set; an empty user is reported first |
| Config.DefaultsValidate | internal/config/config.go:10-26 | the defaults are auth "none", suffix "index.html", port "8080", lifetime 3600 and scopes ["openid"], and both validators accept them |
| Errors.IsSentinelIffRoot | internal/interface/http/util.go:11-19 | errors.Is finds a wrapped sentinel exactly when it is the root of the chain |
| Errors.SentinelsExclusive | internal/interface/http/util.go:11-19 | one error matches at most one sentinel, so the order of the switch cases cannot change the outcome |
| Strings.ParseFormatNat | internal/infrastructure/http/util.go:51-55 | the decimal text of a natural number parses back to it |

## Left out

- Process start-up, signal handling, graceful shutdown, environment loading and
  `ListenAndServe`: I/O and concurrency.
- The router: HTTP methods other than GET are not modelled. The code answers them through the
  gate first in the oidc and basic modes (302 to login or the 401 challenge), and only then
  with 405 from the router. The unescaped path and, for the OIDC routes, the escaped path
  decide the route. The escaped path is assumed to be a valid encoding of the unescaped one,
  as net/url guarantees.
- HMAC-SHA256, base64url and the JSON text of tokens: `Jwt.Jose` is an oracle, and
  `Jwt.Sound` is a hypothesis of the round-trip lemmas.
- OIDC discovery, the oauth2 code exchange and ID-token signature verification: oracles in
  `Oidc.Upstream`. The rendering of the authorization URL (`AuthCodeURL`, URL encoding) is left
  out; the model keeps its inputs.
- The unsynchronised lazy initialisation of the provider is modelled as one sequential
  initialisation (`Oidc.ProviderCache`).
- `subtle.ConstantTimeCompare` is plain equality; its timing is not modelled.
- JSON decoding details: keys are matched exactly (Go also matches case-insensitively), numbers
  are integers (fractional or exponent numbers are not modelled), and a `nil` audience is the
  same as an empty one.
- `http.Error` also sets `Content-Type` and `X-Content-Type-Options` and appends a newline to the
  text; `http.Redirect` cleans relative paths and may write a short HTML body. Neither is
  modelled.
- Byte I/O: the reader is a finite sequence of Read results and the writer a count of Write
  calls that succeed; `Flush`, logging and the reader never being closed are not modelled.
- `time.Now` and `math/rand` are parameters (`now`, `draws`); `http.TimeFormat` formatting of
  Last-Modified is done by the caller of `Delivery.WriteHeaders`.
- The signing error branches of `Sign`, `NewOIDCSession` and `CreateAuthSession`, and the
  "failed to convert" branches after parsing, cannot happen with HMAC keys of type `[]byte` and
  are not modelled.
- `OIDCProvider` and `OIDCGoogleHostedDomain` are read through accessors that config.go does
  not define; they are plain fields of `Config.Config` here.
- `ErrStreamingUnsupported` is used by the object handler but not declared in
  internal/domain/model/error.go; it is a constructor of `Errors.Error` here.
  `ErrInvalidHostedDomain` is declared there, but no modelled code path returns it; only its
  mapping to a status is modelled.
- Strings: Go strings are byte strings, Dafny strings are sequences of Unicode characters.
  Invalid UTF-8 is not representable: `json.Marshal` replaces such bytes with U+FFFD, so
  `AccessToken.ClaimsRoundTrip`, `Oidc.SessionRoundTrip`, `Oidc.NewThenParseSession` and
  `OidcController.LoginBindsStateToCookie` hold of the code only for valid UTF-8 (a redirect
  path "/%FF" comes back as "/\uFFFD"), and object paths with invalid bytes are not modelled.
- Instants: `now` is an unbounded integer; the int64 seconds Go keeps for `now` itself are not
  wrapped, which only matters for instants time.Time cannot hold.
- Delivery.ObjectAttrs: `lastModified` may be empty in the model, while
  `Updated.Format(http.TimeFormat)` never is; an empty value only drops Last-Modified.
- The chunked loop's 32 KiB buffer: how the reader splits the object into Read results is part
  of the input sequence, so the buffer size is not modelled.
- Oidc.CreateAuthSession: the cookie's `Expires` keeps the full instant; its rendering to whole
  seconds in the Set-Cookie header is not modelled.

=== FILE: accesstoken.dfy ===
/** pkg/accesstoken: the claims of the long-lived access session, their expiry rule
    (section 4.1.4 of RFC 7519), HS256 signing and ParseAccessToken. */
module AccessToken {
  import opened Wrappers
  import opened Errors
  import opened Json
  import Audience
  import Jwt

  /** time.Time as nanoseconds since the Unix epoch. */
  type Instant = int

  const NanosPerSecond: int := 1_000_000_000

  /** time.Time.Unix(): whole seconds, rounded toward negative infinity
      (Dafny's `/` with a positive divisor rounds the same way). */
  function UnixSeconds(t: Instant): int {
    t / NanosPerSecond
  }

  datatype Claims = Claims(
    issuer: string,             // "iss"
    expirationTime: int,        // "exp", int64 seconds
    audience: Audience.Audience, // "aud"
    subject: string,            // "sub"
    issuedAt: int)              // "iat", int64 seconds

  /** The two time claims fit their int64 fields. */
  predicate InRange(c: Claims) {
    InInt64(c.expirationTime) && InInt64(c.issuedAt)
  }

  /** Seconds from January 1 of year 1 to the Unix epoch: time.Time counts its seconds from
      year 1 in an int64. */
  const UnixToInternal: int := 62_135_596_800

  /** The largest `exp` for which time.Unix(exp, 0) does not wrap its int64 seconds. */
  const MaxExpiry: int := MaxInt64 - UnixToInternal

  /** AccessToken.Valid: `now.Before(time.Unix(exp, 0))`, else an error wrapping ErrExpiredToken.
      time.Unix adds UnixToInternal to `exp` in an int64, which wraps for `exp > MaxExpiry`;
      Before then compares whole seconds since year 1 (the nanoseconds of time.Unix(exp, 0)
      are zero, so they never decide). */
  function Valid(c: Claims, now: Instant): (r: Option<Error>)
    ensures r.Some? ==> Is(r.value, ExpiredToken)
  {
    if !(UnixSeconds(now) + UnixToInternal < Wrap64(c.expirationTime + UnixToInternal)) then
      Some(Wrapped("accesstoken.Valid: expired access token", ExpiredToken))
    else None
  }

  /** Adding UnixToInternal to an int64 wraps at most once. */
  lemma WrapExpiry(exp: int)
    requires InInt64(exp)
    ensures exp <= MaxExpiry ==> Wrap64(exp + UnixToInternal) == exp + UnixToInternal
    ensures exp > MaxExpiry ==> Wrap64(exp + UnixToInternal) == exp + UnixToInternal - 0x1_0000_0000_0000_0000
  {
    var x := exp + UnixToInternal;
    var m := 0x1_0000_0000_0000_0000;
    if exp > MaxExpiry {
      assert 0 <= x - m - MinInt64 < m;
      assert (x - MinInt64) == (x - m - MinInt64) + 1 * m;
    }
  }

  /** Whatever the instant, accepted int64 claims expire after the current Unix second. */
  lemma ValidBeforeExpiry(c: Claims, now: Instant)
    requires InRange(c)
    ensures Valid(c, now).None? ==> UnixSeconds(now) < c.expirationTime
  {
    WrapExpiry(c.expirationTime);
  }

  /** For an instant whose nanoseconds fit an int64 (as every time.Now() does), int64 claims are
      valid exactly while the current Unix second is before `exp` and `exp` is small enough for
      time.Unix: at now == exp the token has expired, and an `exp` beyond MaxExpiry wraps to
      a time long past, so it is never valid. */
  lemma ValidIffBeforeExpiry(c: Claims, now: Instant)
    requires InRange(c) && InInt64(now)
    ensures Valid(c, now).None? <==> UnixSeconds(now) < c.expirationTime <= MaxExpiry
  {
    WrapExpiry(c.expirationTime);
    assert MinInt64 <= UnixSeconds(now) <= MaxInt64;
  }

  /** json.Marshal of the claims struct (Audience through its own MarshalJSON). */
  function ToJson(c: Claims): Json {
    JObject(map[
      "iss" := JString(c.issuer),
      "exp" := JNumber(c.expirationTime),
      "aud" := Audience.Marshal(c.audience),
      "sub" := JString(c.subject),
      "iat" := JNumber(c.issuedAt)])
  }

  /** json.Unmarshal into a fresh AccessToken: `null` leaves every field zero, an object fills the
      fields it names, anything else is a type error. The order in which several type errors are
      reported is not modelled. */
  function FromJson(j: Json): (r: Result<Claims, Error>)
    ensures r.Success? ==> InRange(r.value)
    ensures j.JObject? && "aud" in j.fields && r.Success? ==>
      Audience.Unmarshal([], j.fields["aud"]) == Success(r.value.audience)
  {
    match j
    case JNull => Success(Claims("", 0, [], "", 0))
    case JObject(f) =>
      var iss :- StringField(f, "iss");
      var exp :- Int64Field(f, "exp");
      var aud :- if "aud" in f then Audience.Unmarshal([], f["aud"]) else Success([]);
      var sub :- StringField(f, "sub");
      var iat :- Int64Field(f, "iat");
      Success(Claims(iss, exp, aud, sub, iat))
    case _ => Failure(UnmarshalType("AccessToken"))
  }

  /** Decoding the encoding of in-range claims gives them back. */
  lemma ClaimsRoundTrip(c: Claims)
    requires InRange(c)
    ensures FromJson(ToJson(c)) == Success(c)
  {
    Audience.RoundTrip(c.audience);
  }

  /** AccessToken.Sign */
  function Sign(jose: Jwt.Jose, c: Claims, key: string): string {
    Jwt.Sign(jose, key, ToJson(c))
  }

  const ParseContext: string := "accesstoken.ParseAccessToken"

  /** The claim check ParseWithClaims runs for an AccessToken. */
  function ValidAt(now: Instant): Claims -> Option<Error> {
    (c: Claims) => Valid(c, now)
  }

  /** ParseAccessToken: an authentic HMAC token whose claims decode and are unexpired, whose
      audience list contains `audience` (membership, not equality), and then whose issuer is
      `issuer`. */
  function ParseAccessToken(jose: Jwt.Jose, token: string, issuer: string, audience: string, key: string, now: Instant)
    : (r: Result<Claims, Error>)
    ensures r.Success? ==> audience in r.value.audience && r.value.issuer == issuer
    ensures r.Success? ==> UnixSeconds(now) < r.value.expirationTime && Valid(r.value, now).None?
    ensures r.Success? ==> Jwt.Authentic(jose, token, Jwt.HmacKeyFunc(key, ParseContext))
    ensures r.Success? ==> jose.decode(token).Some? && FromJson(jose.decode(token).value.payload) == Success(r.value)
    ensures (&& Jwt.Authentic(jose, token, Jwt.HmacKeyFunc(key, ParseContext))
             && FromJson(jose.decode(token).value.payload).Success?
             && var c := FromJson(jose.decode(token).value.payload).value;
                Valid(c, now).None? && audience in c.audience && c.issuer == issuer)
            ==> r == Success(FromJson(jose.decode(token).value.payload).value)
  {
    var parsed := Jwt.ParseWithClaims(jose, token, FromJson, ValidAt(now), Jwt.HmacKeyFunc(key, ParseContext));
    if parsed.Failure? then
      Failure(Wrapped(ParseContext + ": failed to parse token", parsed.error))
    else if audience !in parsed.value.audience then
      Failure(Wrapped(ParseContext + ": invalid audience", InvalidAudience))
    else if parsed.value.issuer != issuer then
      Failure(InvalidIssuer)
    else
      ValidBeforeExpiry(parsed.value, now);
      Success(parsed.value)
  }

  /** Acceptance is monotone in time: a token accepted at `later` is accepted, with the same
      claims, at every earlier instant. */
  lemma ParseEarlier(jose: Jwt.Jose, token: string, issuer: string, audience: string, key: string,
                     earlier: Instant, later: Instant)
    requires earlier <= later
    requires ParseAccessToken(jose, token, issuer, audience, key, later).Success?
    ensures ParseAccessToken(jose, token, issuer, audience, key, earlier)
            == ParseAccessToken(jose, token, issuer, audience, key, later)
  {
    var c := ParseAccessToken(jose, token, issuer, audience, key, later).value;
    assert Valid(c, later).None?;
    assert UnixSeconds(earlier) <= UnixSeconds(later);
    assert Valid(c, earlier).None?;
  }

  /** Sign-then-parse with the same key, the issuer, an audience in the list and a time before
      an `exp` that time.Unix represents returns the signed claims. */
  lemma SignThenParse(jose: Jwt.Jose, c: Claims, key: string, issuer: string, audience: string, now: Instant)
    requires Jwt.Sound(jose) && InRange(c)
    requires audience in c.audience && c.issuer == issuer
    requires UnixSeconds(now) < c.expirationTime <= MaxExpiry
    ensures ParseAccessToken(jose, Sign(jose, c, key), issuer, audience, key, now) == Success(c)
  {
    ClaimsRoundTrip(c);
    WrapExpiry(c.expirationTime);
    Jwt.SignThenParse(jose, key, ToJson(c), FromJson, ValidAt(now), ParseContext);
  }

  /** A correctly signed token is refused, with an error that errors.Is matches to
      ErrExpiredToken, once its expiry second is reached, and at every int64 instant when its
      `exp` is too large for time.Unix. */
  lemma ExpiredTokenRejected(jose: Jwt.Jose, c: Claims, key: string, issuer: string, audience: string, now: Instant)
    requires Jwt.Sound(jose) && InRange(c)
    requires UnixSeconds(now) >= c.expirationTime || (c.expirationTime > MaxExpiry && InInt64(now))
    ensures var r := ParseAccessToken(jose, Sign(jose, c, key), issuer, audience, key, now);
            r.Failure? && Is(r.error, ExpiredToken)
  {
    ClaimsRoundTrip(c);
    WrapExpiry(c.expirationTime);
    var w := Jwt.Jws(Jwt.HS256, ToJson(c), jose.mac(key, Jwt.HS256, ToJson(c)));
    assert jose.decode(jose.encode(w)) == Some(w);
  }

  /** With both the audience and the issuer wrong, the audience error is the one reported. */
  lemma AudienceCheckedFirst(jose: Jwt.Jose, c: Claims, key: string, issuer: string, audience: string, now: Instant)
    requires Jwt.Sound(jose) && InRange(c)
    requires UnixSeconds(now) < c.expirationTime <= MaxExpiry
    requires audience !in c.audience && c.issuer != issuer
    ensures var r := ParseAccessToken(jose, Sign(jose, c, key), issuer, audience, key, now);
            r.Failure? && Is(r.error, InvalidAudience) && !Is(r.error, InvalidIssuer)
  {
    ClaimsRoundTrip(c);
    WrapExpiry(c.expirationTime);
    Jwt.SignThenParse(jose, key, ToJson(c), FromJson, ValidAt(now), ParseContext);
  }
}

=== FILE: audience.dfy ===
/** The `aud` claim codec of pkg/accesstoken: one audience travels as a bare string,
    any other number of audiences as an array (section 4.1.3 of RFC 7519). */
module Audience {
  import opened Wrappers
  import opened Errors
  import opened Json

  type Audience = seq<string>

  predicate AllStrings(items: seq<Json>) {
    forall i :: 0 <= i < |items| ==> items[i].JString?
  }

  /** Audience.MarshalJSON. An empty audience is an empty array here; Go renders a nil slice as null. */
  function Marshal(aud: Audience): (j: Json)
    ensures |aud| == 1 <==> j.JString?
    ensures |aud| != 1 <==> j.JArray?
    ensures j.JArray? ==> AllStrings(j.items) && |j.items| == |aud|
  {
    if |aud| == 1 then JString(aud[0]) else JArray(seq(|aud|, i requires 0 <= i < |aud| => JString(aud[i])))
  }

  /** Index of the first element of an array that is not a string. */
  function FirstNonString(items: seq<Json>): (k: nat)
    requires !AllStrings(items)
    ensures k < |items| && !items[k].JString?
    ensures forall i :: 0 <= i < k ==> items[i].JString?
  {
    if !items[0].JString? then 0 else FirstNonString(items[1..]) + 1
  }

  /** The `[]interface{}` branch: appends every element, failing on the first one that is
      not a string. Elements appended before the failure are lost with the returned error. */
  function AppendStrings(acc: Audience, items: seq<Json>): (r: Result<Audience, Error>)
    ensures r.Success? <==> AllStrings(items)
    ensures r.Success? ==> |r.value| == |acc| + |items| && r.value[..|acc|] == acc
    ensures r.Success? ==> forall i :: 0 <= i < |items| ==> r.value[|acc| + i] == items[i].s
    ensures r.Failure? ==> r.error == UnsupportedType(TypeName(items[FirstNonString(items)]))
    decreases |items|
  {
    if |items| == 0 then Success(acc)
    else if !items[0].JString? then Failure(UnsupportedType(TypeName(items[0])))
    else
      var r := AppendStrings(acc + [items[0].s], items[1..]);
      assert AllStrings(items) <==> AllStrings(items[1..]) by {
        if AllStrings(items[1..]) {
          forall i | 0 <= i < |items| ensures items[i].JString? {
            if i > 0 { assert items[i] == items[1..][i - 1]; }
          }
        }
      }
      r
  }

  /** Audience.UnmarshalJSON on the value json.Unmarshal produced. The `[]string` branch of the
      type switch cannot be taken, since decoding into `interface{}` never yields `[]string`. */
  function Unmarshal(aud: Audience, j: Json): (r: Result<Audience, Error>)
    ensures j.JString? ==> r == Success(aud + [j.s])
    ensures j.JNull? ==> r == Success(aud)
    ensures j.JArray? ==> (r.Success? <==> AllStrings(j.items))
    ensures j.JArray? && r.Success? ==> |r.value| == |aud| + |j.items| && r.value[..|aud|] == aud
    ensures j.JArray? && r.Success? ==> forall i :: 0 <= i < |j.items| ==> r.value[|aud| + i] == j.items[i].s
    ensures j.JBool? || j.JNumber? || j.JObject? ==> r == Failure(UnsupportedType(TypeName(j)))
  {
    match j
    case JString(s) => Success(aud + [s])
    case JArray(items) => AppendStrings(aud, items)
    case JNull => Success(aud)
    case _ => Failure(UnsupportedType(TypeName(j)))
  }

  /** Decoding the encoding of an audience into an empty Audience gives it back. */
  lemma RoundTrip(aud: Audience)
    ensures Unmarshal([], Marshal(aud)) == Success(aud)
  {
    var j := Marshal(aud);
    if |aud| != 1 {
      assert forall i :: 0 <= i < |aud| ==> j.items[i] == JString(aud[i]);
      var r := AppendStrings([], j.items);
      assert forall i :: 0 <= i < |aud| ==> r.value[i] == aud[i] by {
        forall i | 0 <= i < |aud| ensures r.value[i] == aud[i] {
          assert r.value[0 + i] == j.items[i].s;
        }
      }
      assert r.value == aud;
      assert Unmarshal([], j) == r;
    } else {
      assert [] + [aud[0]] == aud;
    }
  }

  /** A bare string and the one-element array holding it decode identically. */
  lemma BareStringIsSingletonArray(aud: Audience, s: string)
    ensures Unmarshal(aud, JString(s)) == Unmarshal(aud, JArray([JString(s)]))
  {
    var r := AppendStrings(aud, [JString(s)]);
    assert r.value[|aud| + 0] == s;
    assert r.value == aud + [s];
  }

  /** A decoding failure is reported for the first non-string element of an array. */
  lemma ArrayErrorNamesFirstBadElement(aud: Audience, items: seq<Json>, k: nat)
    requires k < |items| && !items[k].JString?
    requires forall i :: 0 <= i < k ==> items[i].JString?
    ensures Unmarshal(aud, JArray(items)) == Failure(UnsupportedType(TypeName(items[k])))
  {
    var f := FirstNonString(items);
    assert !(f < k) && !(k < f);
  }
}

=== FILE: config.dfy ===
/** internal/config: the resolved configuration, its defaults and the two validators.
    Loading it from the environment is not part of this model. */
module Config {
  import opened Wrappers
  import opened Errors

  datatype Config = Config(
    listen: string,
    port: string,
    bucket: string,
    mainPageSuffix: string,
    notFoundPage: string,
    baseURL: string,
    authType: string,
    oidcIssuer: string,
    oidcScopes: seq<string>,
    oidcAuthorizeURL: string,
    oidcTokenURL: string,
    oidcClientID: string,
    oidcClientSecret: string,
    jwtExpiration: int,          // int64 seconds
    jwtSecret: string,
    basicAuthUser: string,
    basicAuthPassword: string,
    // read through accessors that config.go does not define; opaque settings here
    oidcProvider: string,
    oidcGoogleHostedDomain: string)

  /** The `default:` tags of the Config struct; fields without a default start empty. */
  const Default: Config := Config(
    listen := "", port := "8080", bucket := "", mainPageSuffix := "index.html", notFoundPage := "",
    baseURL := "", authType := "none", oidcIssuer := "", oidcScopes := ["openid"],
    oidcAuthorizeURL := "", oidcTokenURL := "", oidcClientID := "", oidcClientSecret := "",
    jwtExpiration := 3600, jwtSecret := "", basicAuthUser := "", basicAuthPassword := "",
    oidcProvider := "", oidcGoogleHostedDomain := "")

  /** The settings ValidateOIDC insists on, in the order it checks them, with the names its
      messages use. */
  function RequiredOIDCSettings(c: Config): seq<(string, string)> {
    [("OIDC_ISSUER", c.oidcIssuer), ("OIDC_AUTHORIZATION_URL", c.oidcAuthorizeURL),
     ("OIDC_TOKEN_URL", c.oidcTokenURL), ("OIDC_CLIENT_ID", c.oidcClientID),
     ("OIDC_CLIENT_SECRET", c.oidcClientSecret), ("JWT_SECRET", c.jwtSecret), ("BASE_URL", c.baseURL)]
  }

  /** The name of the first setting whose value is empty, if any. */
  function FirstMissing(settings: seq<(string, string)>): (r: Option<string>)
    ensures r.None? <==> forall i :: 0 <= i < |settings| ==> settings[i].1 != ""
    ensures r.Some? ==> exists k :: 0 <= k < |settings| && settings[k] == (r.value, "")
                          && forall i :: 0 <= i < k ==> settings[i].1 != ""
  {
    if |settings| == 0 then None
    else if settings[0].1 == "" then Some(settings[0].0)
    else
      var r := FirstMissing(settings[1..]);
      assert r.Some? ==> exists k :: 0 <= k < |settings| - 1 && settings[1..][k] == (r.value, "")
                           && forall i :: 0 <= i < k ==> settings[1..][i].1 != "";
      assert r.Some? ==> exists k :: 1 <= k < |settings| && settings[k] == (r.value, "")
                           && forall i :: 0 <= i < k ==> settings[i].1 != "" by {
        if r.Some? {
          var k :| 0 <= k < |settings| - 1 && settings[1..][k] == (r.value, "")
                   && forall i :: 0 <= i < k ==> settings[1..][i].1 != "";
          assert settings[k + 1] == (r.value, "");
          assert forall i :: 0 <= i < k + 1 ==> settings[i].1 != "" by {
            forall i | 0 <= i < k + 1 ensures settings[i].1 != "" {
              if i > 0 { assert settings[i] == settings[1..][i - 1]; }
            }
          }
        }
      }
      assert r.None? ==> forall i :: 0 <= i < |settings| ==> settings[i].1 != "" by {
        if r.None? {
          forall i | 0 <= i < |settings| ensures settings[i].1 != "" {
            if i > 0 { assert settings[i] == settings[1..][i - 1]; }
          }
        }
      }
      r
  }

  /** The error ValidateOIDC returns for a missing setting. */
  function OIDCRequired(name: string): Error {
    Opaque("config.ValidateOIDC: " + name + " is required")
  }

  /** ValidateOIDC, written as the source's chain of checks. */
  function ValidateOIDC(c: Config): (r: Option<Error>)
    ensures c.authType != "oidc" ==> r.None?
  {
    if c.authType != "oidc" then None
    else if c.oidcIssuer == "" then Some(OIDCRequired("OIDC_ISSUER"))
    else if c.oidcAuthorizeURL == "" then Some(OIDCRequired("OIDC_AUTHORIZATION_URL"))
    else if c.oidcTokenURL == "" then Some(OIDCRequired("OIDC_TOKEN_URL"))
    else if c.oidcClientID == "" then Some(OIDCRequired("OIDC_CLIENT_ID"))
    else if c.oidcClientSecret == "" then Some(OIDCRequired("OIDC_CLIENT_SECRET"))
    else if c.jwtSecret == "" then Some(OIDCRequired("JWT_SECRET"))
    else if c.baseURL == "" then Some(OIDCRequired("BASE_URL"))
    else None
  }

  /** For the oidc mode, ValidateOIDC reports the first empty required setting in checking order,
      and succeeds exactly when all seven are set. */
  lemma ValidateOIDCReportsFirstMissing(c: Config)
    requires c.authType == "oidc"
    ensures var missing := FirstMissing(RequiredOIDCSettings(c));
            && (missing.None? ==> ValidateOIDC(c) == None)
            && (missing.Some? ==> ValidateOIDC(c) == Some(OIDCRequired(missing.value)))
  {
    var s := RequiredOIDCSettings(c);
    var missing := FirstMissing(s);
    if missing.None? {
      assert s[0].1 != "" && s[1].1 != "" && s[2].1 != "" && s[3].1 != "";
      assert s[4].1 != "" && s[5].1 != "" && s[6].1 != "";
    } else {
      var k :| 0 <= k < |s| && s[k] == (missing.value, "") && forall i :: 0 <= i < k ==> s[i].1 != "";
      if k == 0 {
      } else if k == 1 {
        assert s[0].1 != "";
      } else if k == 2 {
        assert s[0].1 != "" && s[1].1 != "";
      } else if k == 3 {
        assert s[0].1 != "" && s[1].1 != "" && s[2].1 != "";
      } else if k == 4 {
        assert s[0].1 != "" && s[1].1 != "" && s[2].1 != "" && s[3].1 != "";
      } else if k == 5 {
        assert s[0].1 != "" && s[1].1 != "" && s[2].1 != "" && s[3].1 != "" && s[4].1 != "";
      } else {
        assert s[0].1 != "" && s[1].1 != "" && s[2].1 != "" && s[3].1 != "" && s[4].1 != "" && s[5].1 != "";
      }
    }
  }

  /** ValidateBasicAuth: for the basic mode, the user and then the password must be set. */
  function ValidateBasicAuth(c: Config): (r: Option<Error>)
    ensures r.None? <==> c.authType != "basic" || (c.basicAuthUser != "" && c.basicAuthPassword != "")
    ensures r.Some? && c.basicAuthUser == "" ==> r == Some(Opaque("config.ValidateBasicAuth: BASIC_AUTH_USER is required"))
  {
    if c.authType != "basic" then None
    else if c.basicAuthUser == "" then Some(Opaque("config.ValidateBasicAuth: BASIC_AUTH_USER is required"))
    else if c.basicAuthPassword == "" then Some(Opaque("config.ValidateBasicAuth: BASIC_AUTH_PASSWORD is required"))
    else None
  }

  /** The defaults select no authentication, so both validators accept them. */
  lemma DefaultsValidate()
    ensures Default.authType == "none"
    ensures ValidateOIDC(Default).None? && ValidateBasicAuth(Default).None?
    ensures Default.mainPageSuffix == "index.html" && Default.port == "8080"
    ensures Default.jwtExpiration == 3600 && Default.oidcScopes == ["openid"]
  {
  }
}

=== FILE: delivery.dfy ===
/** internal/infrastructure/http: how an object of the bucket is turned into a response —
    headers from its attributes, a single fallback to the not-found page, and the two ways of
    copying the body. */
module Delivery {
  import opened Wrappers
  import opened Errors
  import opened Strings

  type Byte = bv8

  /** Objects larger than this are streamed with chunked transfer encoding. */
  const ChunkThreshold: int := 32 * 1024 * 1024
  const PrivateCacheControl: string := "private, max-age=60"

  /** The storage.ObjectAttrs fields the handler reads; `lastModified` is `Updated` already
      formatted with http.TimeFormat. */
  datatype ObjectAttrs = ObjectAttrs(
    size: int, contentType: string, contentEncoding: string, contentDisposition: string,
    cacheControl: string, lastModified: string)

  /** The response headers serveFile may set. */
  datatype HeaderName =
    LastModified | ContentType | ContentDisposition | ContentEncoding | TransferEncoding | ContentLength | CacheControl
  {
    function Text(): string {
      match this
      case LastModified => "Last-Modified"
      case ContentType => "Content-Type"
      case ContentDisposition => "Content-Disposition"
      case ContentEncoding => "Content-Encoding"
      case TransferEncoding => "Transfer-Encoding"
      case ContentLength => "Content-Length"
      case CacheControl => "Cache-Control"
    }
  }

  type Header = map<HeaderName, string>

  /** writeStringHeader: the header is set only to a non-empty value. */
  function SetString(h: Header, name: HeaderName, value: string): (h': Header)
    ensures name in h' <==> name in h || |value| > 0
    ensures |value| > 0 ==> h'[name] == value
    ensures forall other | other != name :: (other in h' <==> other in h) && (other in h ==> h'[other] == h[other])
  {
    if |value| > 0 then h[name := value] else h
  }

  /** writeInt64Header: the header is set, in decimal, only to a positive value. */
  function SetInt64(h: Header, name: HeaderName, value: int): (h': Header)
    ensures name in h' <==> name in h || value > 0
    ensures value > 0 ==> (forall i :: 0 <= i < |h'[name]| ==> IsDigit(h'[name][i])) && ParseNat(h'[name]) == value
    ensures forall other | other != name :: (other in h' <==> other in h) && (other in h ==> h'[other] == h[other])
  {
    if value > 0 then
      ParseFormatNat(value);
      h[name := FormatNat(value)]
    else h
  }

  /** The four headers copied from the attributes as they are. */
  function DescriptiveHeaders(attrs: ObjectAttrs): (h: Header)
    ensures (LastModified in h <==> |attrs.lastModified| > 0) && (LastModified in h ==> h[LastModified] == attrs.lastModified)
    ensures (ContentType in h <==> |attrs.contentType| > 0) && (ContentType in h ==> h[ContentType] == attrs.contentType)
    ensures (ContentDisposition in h <==> |attrs.contentDisposition| > 0)
            && (ContentDisposition in h ==> h[ContentDisposition] == attrs.contentDisposition)
    ensures (ContentEncoding in h <==> |attrs.contentEncoding| > 0)
            && (ContentEncoding in h ==> h[ContentEncoding] == attrs.contentEncoding)
    ensures TransferEncoding !in h && ContentLength !in h && CacheControl !in h
  {
    var h := SetString(map[], LastModified, attrs.lastModified);
    var h := SetString(h, ContentType, attrs.contentType);
    var h := SetString(h, ContentDisposition, attrs.contentDisposition);
    SetString(h, ContentEncoding, attrs.contentEncoding)
  }

  /** The headers writeHeaders sets, each one only when it has something to say. */
  function WriteHeaders(attrs: ObjectAttrs, chunked: bool, authType: string): (h: Header)
    ensures forall name | name in {LastModified, ContentType, ContentDisposition, ContentEncoding} ::
      (name in h <==> name in DescriptiveHeaders(attrs)) && (name in h ==> h[name] == DescriptiveHeaders(attrs)[name])
    ensures TransferEncoding in h <==> chunked
    ensures TransferEncoding in h ==> h[TransferEncoding] == "chunked"
    ensures ContentLength in h <==> !chunked && attrs.size > 0
    ensures ContentLength in h ==>
      (forall i :: 0 <= i < |h[ContentLength]| ==> IsDigit(h[ContentLength][i])) && ParseNat(h[ContentLength]) == attrs.size
    ensures authType == "oidc" || authType == "basic" ==> CacheControl in h && h[CacheControl] == PrivateCacheControl
    ensures authType != "oidc" && authType != "basic" ==>
      (CacheControl in h <==> |attrs.cacheControl| > 0) && (CacheControl in h ==> h[CacheControl] == attrs.cacheControl)
  {
    var h := DescriptiveHeaders(attrs);
    var h := if chunked then SetString(h, TransferEncoding, "chunked") else SetInt64(h, ContentLength, attrs.size);
    if authType == "oidc" || authType == "basic" then SetString(h, CacheControl, PrivateCacheControl)
    else SetString(h, CacheControl, attrs.cacheControl)
  }

  /** A response: one written by http.Error, or a 200 with headers and body. */
  datatype Response = ErrorText(status: int, text: string) | Ok(header: Header, body: seq<Byte>)

  const NotFoundText: string := "not found"
  const StreamingText: string := "streaming unsupported"
  const InternalText: string := "internal server error"

  /** responseError of the object handler. */
  function ResponseError(e: Error): Response {
    if Is(e, ObjectNotExist) then ErrorText(404, NotFoundText)
    else if Is(e, StreamingUnsupported) then ErrorText(500, StreamingText)
    else ErrorText(500, InternalText)
  }

  /** The mapping decided by the sentinel at the root of the error chain; the error's own text
      never reaches the client. */
  lemma ResponseErrorByRoot(e: Error)
    ensures Root(e) == ObjectNotExist <==> ResponseError(e) == ErrorText(404, NotFoundText)
    ensures Root(e) == StreamingUnsupported <==> ResponseError(e) == ErrorText(500, StreamingText)
    ensures Root(e) != ObjectNotExist && Root(e) != StreamingUnsupported <==> ResponseError(e) == ErrorText(500, InternalText)
  {
    IsSentinelIffRoot(e, ObjectNotExist);
    IsSentinelIffRoot(e, StreamingUnsupported);
  }

  /** Why a Read call stopped: end of object, cancelled request, or any other failure. */
  datatype ReadError = EOF | Canceled | ReadFailed(text: string)

  /** One Read call: the bytes it returned and the error it returned with them. */
  datatype ReadStep = ReadStep(data: seq<Byte>, err: Option<ReadError>)

  /** The storage backend as seen by serveFile: the attributes of a key, and the sequence of
      Read results of a reader opened on it; reading past the end returns EOF. */
  datatype Bucket = Bucket(attrs: string -> Result<ObjectAttrs, Error>, open: string -> Result<seq<ReadStep>, Error>)

  /** The response writer: whether it is an http.Flusher, and how many non-empty Write calls
      succeed before the connection fails. A Write of no bytes always succeeds. */
  datatype Client = Client(canFlush: bool, goodWrites: nat)

  /** The bytes of a run of Read results, in order. */
  function Concat(steps: seq<ReadStep>): seq<Byte> {
    if |steps| == 0 then [] else steps[0].data + Concat(steps[1..])
  }

  /** How many of the results returned bytes. */
  function NonEmpty(steps: seq<ReadStep>): nat {
    if |steps| == 0 then 0 else (if |steps[0].data| > 0 then 1 else 0) + NonEmpty(steps[1..])
  }

  /** The number of Read results before the first one that carries an error. */
  function Clean(steps: seq<ReadStep>): (k: nat)
    ensures k <= |steps|
    ensures forall i :: 0 <= i < k ==> steps[i].err.None?
    ensures k < |steps| ==> steps[k].err.Some?
  {
    if |steps| == 0 || steps[0].err.Some? then 0 else 1 + Clean(steps[1..])
  }

  /** The Read results a reader consumes before it stops: the clean ones and the first failing one. */
  function Consumed(steps: seq<ReadStep>): seq<ReadStep> {
    if Clean(steps) < |steps| then steps[..Clean(steps) + 1] else steps
  }

  /** The body the chunked loop sends: every Read result up to the first error, whose bytes
      are dropped with it; each Write, flushed at once, until one fails. */
  function Streamed(steps: seq<ReadStep>, goodWrites: nat): seq<Byte>
    decreases |steps|
  {
    if |steps| == 0 || steps[0].err.Some? then []
    else if |steps[0].data| == 0 then Streamed(steps[1..], goodWrites)
    else if goodWrites == 0 then []
    else steps[0].data + Streamed(steps[1..], goodWrites - 1)
  }

  /** The body io.Copy sends: bytes returned together with an error are still written, then
      copying stops; a failed Write stops it too. */
  function Copied(steps: seq<ReadStep>, goodWrites: nat): seq<Byte>
    decreases |steps|
  {
    if |steps| == 0 then []
    else if |steps[0].data| > 0 && goodWrites == 0 then []
    else
      var rest := if |steps[0].data| > 0 then goodWrites - 1 else goodWrites;
      if steps[0].err.Some? then steps[0].data else steps[0].data + Copied(steps[1..], rest)
  }

  /** The chunked branch delivers a prefix of the bytes read before the first error, and all of
      them when no Write fails. */
  lemma {:induction false} StreamedIsCleanPrefix(steps: seq<ReadStep>, goodWrites: nat)
    ensures Streamed(steps, goodWrites) <= Concat(steps[..Clean(steps)])
    ensures goodWrites >= NonEmpty(steps[..Clean(steps)]) ==> Streamed(steps, goodWrites) == Concat(steps[..Clean(steps)])
  {
    if |steps| > 0 && steps[0].err.None? {
      var k := Clean(steps);
      assert steps[..k][1..] == steps[1..][..Clean(steps[1..])];
      StreamedIsCleanPrefix(steps[1..], goodWrites);
      if |steps[0].data| > 0 && goodWrites > 0 {
        StreamedIsCleanPrefix(steps[1..], goodWrites - 1);
      }
    }
  }

  /** io.Copy delivers a prefix of every byte read, including those returned with the final
      error, and all of them when no Write fails. */
  lemma {:induction false} CopiedIsConsumedPrefix(steps: seq<ReadStep>, goodWrites: nat)
    ensures Copied(steps, goodWrites) <= Concat(Consumed(steps))
    ensures goodWrites >= NonEmpty(Consumed(steps)) ==> Copied(steps, goodWrites) == Concat(Consumed(steps))
  {
    if |steps| > 0 {
      var c := Consumed(steps);
      if steps[0].err.Some? {
        assert c == [steps[0]];
        assert Concat(c) == steps[0].data + Concat([]);
      } else {
        assert c[1..] == Consumed(steps[1..]);
        CopiedIsConsumedPrefix(steps[1..], goodWrites);
        if |steps[0].data| > 0 && goodWrites > 0 {
          CopiedIsConsumedPrefix(steps[1..], goodWrites - 1);
        }
      }
    }
  }

  /** The two branches differ on the bytes of the last Read: an object whose only Read returns
      its bytes together with io.EOF is delivered whole by io.Copy and empty by the chunked loop. */
  lemma LastReadBytes(data: seq<Byte>, goodWrites: nat)
    requires |data| > 0 && goodWrites > 0
    ensures Copied([ReadStep(data, Some(EOF))], goodWrites) == data
    ensures Streamed([ReadStep(data, Some(EOF))], goodWrites) == []
  {
  }

  /** The chunked loop of serveFile over the Read results: Read, stop on any error (a Read past
      the end returns io.EOF), Write the bytes, stop if the Write fails, Flush. */
  method StreamChunked(steps: seq<ReadStep>, client: Client) returns (body: seq<Byte>)
    ensures body == Streamed(steps, client.goodWrites)
  {
    body := [];
    var i, written := 0, 0;
    while i < |steps| && steps[i].err.None?
      invariant 0 <= i <= |steps| && written <= client.goodWrites
      invariant body + Streamed(steps[i..], client.goodWrites - written) == Streamed(steps, client.goodWrites)
      decreases |steps| - i
    {
      assert steps[i..][1..] == steps[i + 1..];
      var data := steps[i].data;
      if |data| > 0 {
        if written == client.goodWrites {
          break;
        }
        written := written + 1;
      }
      body := body + data;
      i := i + 1;
    }
  }

  /** io.Copy over the Read results: Write what was read, stop if the Write fails, then stop on
      any Read error. */
  method CopyBody(steps: seq<ReadStep>, client: Client) returns (body: seq<Byte>)
    ensures body == Copied(steps, client.goodWrites)
  {
    body := [];
    var i, written := 0, 0;
    while i < |steps|
      invariant 0 <= i <= |steps| && written <= client.goodWrites
      invariant body + Copied(steps[i..], client.goodWrites - written) == Copied(steps, client.goodWrites)
      decreases |steps| - i
    {
      assert steps[i..][1..] == steps[i + 1..];
      var step := steps[i];
      if |step.data| > 0 {
        if written == client.goodWrites {
          break;
        }
        written := written + 1;
      }
      body := body + step.data;
      if step.err.Some? {
        break;
      }
      i := i + 1;
    }
  }

  /** Whether serveFile turns a lookup of `key` into a lookup of the not-found page: the object
      does not exist, a not-found page is configured, and `key` is not that page. */
  predicate FallsBack(bucket: Bucket, notFoundPage: string, key: string) {
    && bucket.attrs(key).Failure? && Is(bucket.attrs(key).error, ObjectNotExist)
    && |notFoundPage| > 0 && key != notFoundPage
  }

  /** The key whose object serveFile ends up answering with. */
  function ServedKey(bucket: Bucket, notFoundPage: string, key: string): (k: string)
    ensures k == key || k == notFoundPage
    ensures !FallsBack(bucket, notFoundPage, k)
  {
    if FallsBack(bucket, notFoundPage, key) then notFoundPage else key
  }

  /** The body a client receives for an object: streamed when it is larger than the threshold,
      copied otherwise. */
  function Body(attrs: ObjectAttrs, steps: seq<ReadStep>, client: Client): seq<Byte> {
    if attrs.size > ChunkThreshold then Streamed(steps, client.goodWrites) else Copied(steps, client.goodWrites)
  }

  /** serveFile: attributes first (falling back once to the not-found page), then a reader,
      then headers and body. A large object needs a flushing writer. */
  function ServeFile(bucket: Bucket, notFoundPage: string, authType: string, key: string, client: Client): (r: Response)
    decreases if key == notFoundPage then 0 else 1
    ensures r.ErrorText? ==> r.text in {NotFoundText, StreamingText, InternalText}
    ensures var k := ServedKey(bucket, notFoundPage, key);
      r.Ok? <==>
        && bucket.attrs(k).Success? && bucket.open(k).Success?
        && (bucket.attrs(k).value.size <= ChunkThreshold || client.canFlush)
    ensures r.Ok? ==>
      var k := ServedKey(bucket, notFoundPage, key);
      && bucket.attrs(k).Success? && bucket.open(k).Success?
      && var attrs := bucket.attrs(k).value;
      && r.header == WriteHeaders(attrs, attrs.size > ChunkThreshold, authType)
      && (TransferEncoding in r.header <==> attrs.size > ChunkThreshold)
      && r.body == Body(attrs, bucket.open(k).value, client)
  {
    match bucket.attrs(key)
    case Failure(e) =>
      if Is(e, ObjectNotExist) && |notFoundPage| > 0 && key != notFoundPage then
        ServeFile(bucket, notFoundPage, authType, notFoundPage, client)
      else ResponseError(e)
    case Success(attrs) =>
      match bucket.open(key)
      case Failure(e) => ResponseError(e)
      case Success(steps) =>
        if attrs.size > ChunkThreshold then
          if !client.canFlush then ResponseError(StreamingUnsupported)
          else Ok(WriteHeaders(attrs, true, authType), Streamed(steps, client.goodWrites))
        else Ok(WriteHeaders(attrs, false, authType), Copied(steps, client.goodWrites))
  }

  /** A missing object is answered with the not-found page, with the page's own status. */
  lemma FallbackServesNotFoundPage(bucket: Bucket, notFoundPage: string, authType: string, key: string, client: Client)
    requires FallsBack(bucket, notFoundPage, key)
    ensures ServeFile(bucket, notFoundPage, authType, key, client)
            == ServeFile(bucket, notFoundPage, authType, notFoundPage, client)
  {
  }

  /** The fallback is a single hop: when the not-found page is missing too, or none is
      configured, a missing object is a plain 404. */
  lemma MissingEverywhereIs404(bucket: Bucket, notFoundPage: string, authType: string, key: string, client: Client)
    requires bucket.attrs(key).Failure? && Is(bucket.attrs(key).error, ObjectNotExist)
    requires |notFoundPage| == 0 || (bucket.attrs(notFoundPage).Failure? && Is(bucket.attrs(notFoundPage).error, ObjectNotExist))
    ensures ServeFile(bucket, notFoundPage, authType, key, client) == ErrorText(404, NotFoundText)
  {
  }

  /** A large object on a writer that cannot flush is refused with 500 before any header is
      written. */
  lemma LargeObjectNeedsFlusher(bucket: Bucket, notFoundPage: string, authType: string, key: string, client: Client)
    requires bucket.attrs(key).Success? && bucket.open(key).Success?
    requires bucket.attrs(key).value.size > ChunkThreshold && !client.canFlush
    ensures ServeFile(bucket, notFoundPage, authType, key, client) == ErrorText(500, StreamingText)
  {
    ResponseErrorByRoot(StreamingUnsupported);
  }

  /** With a client that accepts every Write, the chunked branch delivers exactly the bytes read
      before the first Read error and the copy branch those bytes plus the ones returned with
      the error. */
  lemma {:induction false} CompleteDelivery(attrs: ObjectAttrs, steps: seq<ReadStep>, client: Client)
    requires client.goodWrites >= NonEmpty(steps)
    ensures attrs.size > ChunkThreshold ==> Body(attrs, steps, client) == Concat(steps[..Clean(steps)])
    ensures attrs.size <= ChunkThreshold ==> Body(attrs, steps, client) == Concat(Consumed(steps))
  {
    NonEmptyPrefix(steps, Clean(steps));
    NonEmptyPrefix(steps, |Consumed(steps)|);
    assert Consumed(steps) == steps[..|Consumed(steps)|];
    StreamedIsCleanPrefix(steps, client.goodWrites);
    CopiedIsConsumedPrefix(steps, client.goodWrites);
  }

  lemma {:induction false} NonEmptyPrefix(steps: seq<ReadStep>, k: nat)
    requires k <= |steps|
    ensures NonEmpty(steps[..k]) <= NonEmpty(steps)
  {
    if k > 0 {
      assert steps[..k][1..] == steps[1..][..k - 1];
      NonEmptyPrefix(steps[1..], k - 1);
    }
  }
}

=== FILE: errors.dfy ===
/** The Go `error` values that the proxy creates, wraps with `%w` and matches with `errors.Is`. */
module Errors {

  datatype Error =
      // sentinels of internal/domain/model/error.go
    | InvalidIDToken
    | InvalidRedirectURL
    | InvalidState
    | InvalidHostedDomain
      // sentinel that server.go refers to; its declaration is not part of this model
    | StreamingUnsupported
      // sentinels of pkg/accesstoken/error.go
    | ExpiredToken
    | InvalidAudience
    | InvalidIssuer
      // storage.ErrObjectNotExist of the storage client
    | ObjectNotExist
      // http.ErrNoCookie
    | NoCookie
      // encoding/json errors
    | UnsupportedType(typeName: string)
    | UnmarshalType(field: string)
      // a jwt.ValidationError, named by the flag the parser sets; `cause` is its Inner error
    | TokenMalformed(cause: Error)
    | TokenUnverifiable(cause: Error)
    | TokenInvalid(cause: Error)
      // fmt.Errorf("<context>: %w", inner)
    | Wrapped(context: string, inner: Error)
      // any other error value, known only by its text
    | Opaque(text: string)
  {
    /** The package-level `var Err… = errors.New(…)` values. */
    predicate IsSentinel() {
      || InvalidIDToken? || InvalidRedirectURL? || InvalidState? || InvalidHostedDomain?
      || StreamingUnsupported? || ExpiredToken? || InvalidAudience? || InvalidIssuer?
      || ObjectNotExist? || NoCookie?
    }
  }

  /** errors.Is: the error, or an error its Unwrap chain reaches, equals the target. */
  predicate Is(e: Error, target: Error) {
    e == target ||
    (match e
     case TokenMalformed(c) => Is(c, target)
     case TokenUnverifiable(c) => Is(c, target)
     case TokenInvalid(c) => Is(c, target)
     case Wrapped(_, inner) => Is(inner, target)
     case _ => false)
  }

  /** The innermost error of the Unwrap chain. */
  function Root(e: Error): Error {
    match e
    case TokenMalformed(c) => Root(c)
    case TokenUnverifiable(c) => Root(c)
    case TokenInvalid(c) => Root(c)
    case Wrapped(_, inner) => Root(inner)
    case _ => e
  }

  /** A wrapped sentinel is found by errors.Is exactly when it sits at the root of the chain;
      hence one error value matches at most one sentinel, whatever order a switch tests them in. */
  lemma {:induction false} IsSentinelIffRoot(e: Error, target: Error)
    requires target.IsSentinel()
    ensures Is(e, target) <==> Root(e) == target
  {
    match e
    case TokenMalformed(c) => IsSentinelIffRoot(c, target);
    case TokenUnverifiable(c) => IsSentinelIffRoot(c, target);
    case TokenInvalid(c) => IsSentinelIffRoot(c, target);
    case Wrapped(_, inner) => IsSentinelIffRoot(inner, target);
    case _ =>
  }

  lemma SentinelsExclusive(e: Error, a: Error, b: Error)
    requires a.IsSentinel() && b.IsSentinel()
    requires Is(e, a) && Is(e, b)
    ensures a == b
  {
    IsSentinelIffRoot(e, a);
    IsSentinelIffRoot(e, b);
  }

  /** err.Error(): the text of an error value. */
  function Message(e: Error): string {
    match e
    case InvalidIDToken => "invalid id token"
    case InvalidRedirectURL => "invalid redirect URL"
    case InvalidState => "invalid state"
    case InvalidHostedDomain => "invalid hosted domain"
    case StreamingUnsupported => "streaming unsupported"
    case ExpiredToken => "expired token"
    case InvalidAudience => "invalid audience"
    case InvalidIssuer => "invalid issuer"
    case ObjectNotExist => "storage: object doesn't exist"
    case NoCookie => "http: named cookie not present"
    case UnsupportedType(t) => "json: unsupported type: " + t
    case UnmarshalType(f) => "json: cannot unmarshal into Go struct field " + f
    case TokenMalformed(c) => Message(c)
    case TokenUnverifiable(c) => Message(c)
    case TokenInvalid(c) => Message(c)
    case Wrapped(context, inner) => context + ": " + Message(inner)
    case Opaque(text) => text
  }
}

=== FILE: http_request.dfy ===
/** The parts of a net/http request the core reads, the Set-Cookie values it writes, and
    internal/util/http.go's IsTLS. */
module Http {
  import opened Wrappers
  import opened Errors

  /** A request cookie, as r.Cookie finds it in the Cookie header. */
  datatype Cookie = Cookie(name: string, value: string)

  datatype Request = Request(
    path: string,                      // r.URL.Path, already unescaped
    rawPath: string,                   // r.URL.RawPath: the escaped path when it is not the default encoding, else ""
    query: map<string, seq<string>>,   // r.URL.Query()
    header: map<string, seq<string>>,  // r.Header, keys in canonical form
    cookies: seq<Cookie>,              // the Cookie header, parsed, in order
    tls: bool)                         // r.TLS != nil

  /** url.Values.Get: the first value, or "" when there is none. */
  function QueryGet(r: Request, key: string): string {
    if key in r.query && |r.query[key]| > 0 then r.query[key][0] else ""
  }

  /** http.Header.Get: the first value, or "" when there is none. */
  function HeaderGet(r: Request, key: string): string {
    if key in r.header && |r.header[key]| > 0 then r.header[key][0] else ""
  }

  /** r.Cookie(name): the first cookie of that name, or http.ErrNoCookie. */
  function CookieNamed(r: Request, name: string): (v: Result<string, Error>)
    ensures v.Success? <==> exists i :: 0 <= i < |r.cookies| && r.cookies[i].name == name
    ensures v.Success? ==> exists i :: 0 <= i < |r.cookies| && r.cookies[i] == Cookie(name, v.value)
                             && forall j :: 0 <= j < i ==> r.cookies[j].name != name
    ensures v.Failure? ==> v.error == NoCookie
  {
    FirstCookie(r.cookies, name)
  }

  function FirstCookie(cookies: seq<Cookie>, name: string): (v: Result<string, Error>)
    ensures v.Success? <==> exists i :: 0 <= i < |cookies| && cookies[i].name == name
    ensures v.Success? ==> exists i :: 0 <= i < |cookies| && cookies[i] == Cookie(name, v.value)
                             && forall j :: 0 <= j < i ==> cookies[j].name != name
    ensures v.Failure? ==> v.error == NoCookie
  {
    if |cookies| == 0 then Failure(NoCookie)
    else if cookies[0].name == name then Success(cookies[0].value)
    else
      var v := FirstCookie(cookies[1..], name);
      assert forall i :: 1 <= i < |cookies| ==> cookies[i] == cookies[1..][i - 1];
      assert v.Success? ==> exists i :: 1 <= i < |cookies| && cookies[i] == Cookie(name, v.value)
                              && forall j :: 0 <= j < i ==> cookies[j].name != name by {
        if v.Success? {
          var i :| 0 <= i < |cookies| - 1 && cookies[1..][i] == Cookie(name, v.value)
                   && forall j :: 0 <= j < i ==> cookies[1..][j].name != name;
          assert cookies[i + 1] == Cookie(name, v.value);
          forall j | 0 <= j < i + 1 ensures cookies[j].name != name {
            if j > 0 { assert cookies[j] == cookies[1..][j - 1]; }
          }
        }
      }
      v
  }

  /** A cookie appended after the others is found only when no earlier cookie has its name. */
  lemma {:induction false} FirstCookieAppend(cookies: seq<Cookie>, name: string, value: string)
    requires FirstCookie(cookies, name).Failure?
    ensures FirstCookie(cookies + [Cookie(name, value)], name) == Success(value)
  {
    if |cookies| > 0 {
      assert (cookies + [Cookie(name, value)])[1..] == cookies[1..] + [Cookie(name, value)];
      FirstCookieAppend(cookies[1..], name, value);
    }
  }

  const ForwardedProto: string := "X-Forwarded-Proto"

  /** util.IsTLS */
  function IsTLS(r: Request): bool {
    r.tls || HeaderGet(r, ForwardedProto) == "https"
  }

  /** Without TLS state only the first X-Forwarded-Proto value decides, and only "https" marks
      the request as secure; values after the first are ignored. With TLS state every request
      is secure, whatever its headers say. */
  lemma IsTLSFirstForwardedValueDecides(r: Request, first: string, rest: seq<string>)
    ensures !r.tls ==> (IsTLS(r.(header := r.header[ForwardedProto := [first] + rest])) <==> first == "https")
    ensures !r.tls && ForwardedProto !in r.header ==> !IsTLS(r)
    ensures IsTLS(r.(tls := true))
  {
  }

  /** The cases of internal/util/http_test.go. */
  lemma IsTLSExamples()
    ensures IsTLS(Request("", "", map[], map[], [], true))
    ensures IsTLS(Request("", "", map[], map[ForwardedProto := ["https"]], [], false))
    ensures !IsTLS(Request("", "", map[], map[], [], false))
    ensures !IsTLS(Request("", "", map[], map[ForwardedProto := ["http"]], [], false))
    ensures !IsTLS(Request("", "", map[], map[ForwardedProto := []], [], false))
  {
  }

  /** An http.Cookie the proxy sets; `maxAge` 0 and `expires` None mean "not set". */
  datatype SetCookie = SetCookie(
    name: string, value: string, path: string, secure: bool,
    maxAge: int, expires: Option<int>, httpOnly: bool)

  /** ASCII case folding, as the basic-auth scheme check uses. */
  function LowerAscii(c: char): char {
    if 'A' <= c <= 'Z' then (c as int + 32) as char else c
  }

  predicate EqualFoldAscii(a: string, b: string) {
    |a| == |b| && forall i :: 0 <= i < |a| ==> LowerAscii(a[i]) == LowerAscii(b[i])
  }

  /** strings.Cut at the first occurrence of `sep`. */
  function Cut(s: string, sep: char): (r: Option<(string, string)>)
    ensures r.Some? ==> s == r.value.0 + [sep] + r.value.1 && sep !in r.value.0
    ensures r.None? <==> sep !in s
  {
    if |s| == 0 then None
    else if s[0] == sep then Some(([], s[1..]))
    else
      var rest := Cut(s[1..], sep);
      if rest.None? then None else Some(([s[0]] + rest.value.0, rest.value.1))
  }

  /** Cutting a string built from a separator-free head returns the head and the tail. */
  lemma {:induction false} CutSplitsAtFirst(a: string, b: string, sep: char)
    requires sep !in a
    ensures Cut(a + [sep] + b, sep) == Some((a, b))
  {
    if |a| > 0 {
      var s := a + [sep] + b;
      assert s[0] == a[0] && a[0] != sep;
      assert s[1..] == a[1..] + [sep] + b;
      CutSplitsAtFirst(a[1..], b, sep);
      assert [a[0]] + a[1..] == a;
    } else {
      assert (a + [sep] + b)[1..] == b;
    }
  }

  const BasicPrefix: string := "Basic "

  /** r.BasicAuth (section 2 of RFC 7617): a case-insensitive "Basic " scheme, base64 decoding
      (an oracle here), then user-id and password split at the first colon. */
  function BasicAuth(r: Request, base64Decode: string -> Option<string>): (cred: Option<(string, string)>)
    ensures cred.Some? ==> ':' !in cred.value.0
    ensures var auth := HeaderGet(r, "Authorization");
      cred.Some? <==>
        && |auth| >= |BasicPrefix| && EqualFoldAscii(auth[..|BasicPrefix|], BasicPrefix)
        && base64Decode(auth[|BasicPrefix|..]).Some? && ':' in base64Decode(auth[|BasicPrefix|..]).value
    ensures var auth := HeaderGet(r, "Authorization");
      cred.Some? ==> base64Decode(auth[|BasicPrefix|..]) == Some(cred.value.0 + [':'] + cred.value.1)
  {
    var auth := HeaderGet(r, "Authorization");
    if |auth| < |BasicPrefix| || !EqualFoldAscii(auth[..|BasicPrefix|], BasicPrefix) then None
    else match base64Decode(auth[|BasicPrefix|..])
      case None => None
      case Some(decoded) => Cut(decoded, ':')
  }

  /** Credentials encoded per RFC 7617 are read back exactly, whatever the password holds. */
  lemma BasicAuthRoundTrip(r: Request, base64Decode: string -> Option<string>, token: string, user: string, pass: string)
    requires HeaderGet(r, "Authorization") == BasicPrefix + token
    requires base64Decode(token) == Some(user + ":" + pass)
    requires ':' !in user
    ensures BasicAuth(r, base64Decode) == Some((user, pass))
  {
    var auth := BasicPrefix + token;
    assert auth[..|BasicPrefix|] == BasicPrefix;
    assert auth[|BasicPrefix|..] == token;
    CutSplitsAtFirst(user, pass, ':');
    assert user + ":" + pass == user + [':'] + pass;
  }

  /** Without an Authorization header there are no credentials. */
  lemma NoHeaderNoCredentials(r: Request, base64Decode: string -> Option<string>)
    requires "Authorization" !in r.header
    ensures BasicAuth(r, base64Decode).None?
  {
  }
}

=== FILE: json.dfy ===
/** JSON values as encoding/json produces them when it decodes into `interface{}`, and the
    decoding of single struct fields (absent or null leaves the Go zero value). */
module Json {
  import opened Wrappers
  import opened Errors

  /** Numbers are integral here: fractional JSON numbers are not part of this model. */
  datatype Json =
    | JNull
    | JBool(b: bool)
    | JNumber(n: int)
    | JString(s: string)
    | JArray(items: seq<Json>)
    | JObject(fields: map<string, Json>)

  const MinInt64: int := -0x8000_0000_0000_0000
  const MaxInt64: int := 0x7fff_ffff_ffff_ffff

  predicate InInt64(n: int) {
    MinInt64 <= n <= MaxInt64
  }

  /** Two's-complement int64 arithmetic: the value an int64 holds after an operation whose
      mathematical result is `x`. */
  function Wrap64(x: int): (r: int)
    ensures InInt64(r)
    ensures InInt64(x) ==> r == x
    ensures (r - x) % 0x1_0000_0000_0000_0000 == 0
  {
    (x - MinInt64) % 0x1_0000_0000_0000_0000 + MinInt64
  }

  /** reflect.TypeOf(v).String() of a decoded value; `nil` has no type. */
  function TypeName(j: Json): string {
    match j
    case JNull => "<nil>"
    case JBool(_) => "bool"
    case JNumber(_) => "float64"
    case JString(_) => "string"
    case JArray(_) => "[]interface {}"
    case JObject(_) => "map[string]interface {}"
  }

  /** Decoding a `string` struct field. */
  function StringField(fields: map<string, Json>, name: string): (r: Result<string, Error>)
    ensures r.Success? <==> name !in fields || fields[name].JNull? || fields[name].JString?
    ensures name in fields && fields[name].JString? ==> r == Success(fields[name].s)
    ensures name !in fields ==> r == Success("")
    ensures r.Failure? ==> r.error == UnmarshalType(name)
  {
    if name !in fields then Success("")
    else match fields[name]
      case JNull => Success("")
      case JString(s) => Success(s)
      case _ => Failure(UnmarshalType(name))
  }

  /** Decoding an `int64` struct field. */
  function Int64Field(fields: map<string, Json>, name: string): (r: Result<int, Error>)
    ensures r.Success? ==> InInt64(r.value)
    ensures name in fields && fields[name].JNumber? && InInt64(fields[name].n) ==> r == Success(fields[name].n)
    ensures name in fields && fields[name].JNumber? && !InInt64(fields[name].n) ==> r.Failure?
    ensures name !in fields ==> r == Success(0)
    ensures r.Failure? ==> r.error == UnmarshalType(name)
  {
    if name !in fields then Success(0)
    else match fields[name]
      case JNull => Success(0)
      case JNumber(n) => if InInt64(n) then Success(n) else Failure(UnmarshalType(name))
      case _ => Failure(UnmarshalType(name))
  }
}

=== FILE: jwt.dfy ===
/** The part of golang-jwt v4 the proxy depends on: HS256 signing and ParseWithClaims.
    Byte-level work (base64url, JSON text, HMAC-SHA256) is an oracle, `Jose`. */
module Jwt {
  import opened Wrappers
  import opened Errors
  import opened Json

  datatype SigningMethod = Hmac(bits: nat) | Rsa(bits: nat) | RsaPss(bits: nat) | Ecdsa(bits: nat) | Ed25519 | Unsecured

  /** jwt.GetSigningMethod over the methods golang-jwt v4 registers. */
  function MethodByName(alg: string): (m: Option<SigningMethod>)
    ensures m.Some? && m.value.Hmac? <==> alg in {"HS256", "HS384", "HS512"}
  {
    if alg == "HS256" then Some(Hmac(256))
    else if alg == "HS384" then Some(Hmac(384))
    else if alg == "HS512" then Some(Hmac(512))
    else if alg == "RS256" then Some(Rsa(256))
    else if alg == "RS384" then Some(Rsa(384))
    else if alg == "RS512" then Some(Rsa(512))
    else if alg == "PS256" then Some(RsaPss(256))
    else if alg == "PS384" then Some(RsaPss(384))
    else if alg == "PS512" then Some(RsaPss(512))
    else if alg == "ES256" then Some(Ecdsa(256))
    else if alg == "ES384" then Some(Ecdsa(384))
    else if alg == "ES512" then Some(Ecdsa(512))
    else if alg == "EdDSA" then Some(Ed25519)
    else if alg == "none" then Some(Unsecured)
    else None
  }

  /** A compact JWS once split and decoded: the header's `alg`, the claims, the signature. */
  datatype Jws = Jws(alg: string, payload: Json, signature: string)

  /** Oracles for the byte-level work: compact serialisation, its parsing, and the HMAC of the
      signing input under a key (section 3.2 of RFC 7518). */
  datatype Jose = Jose(
    encode: Jws -> string,
    decode: string -> Option<Jws>,
    mac: (string, string, Json) -> string)

  /** Parsing undoes serialisation. Round-trip lemmas take this as a hypothesis. */
  ghost predicate Sound(jose: Jose) {
    forall w :: jose.decode(jose.encode(w)) == Some(w)
  }

  const HS256: string := "HS256"

  /** jwt.NewWithClaims(jwt.SigningMethodHS256, claims).SignedString(key). With a byte-slice key
      it cannot fail, so no error is modelled. */
  function Sign(jose: Jose, key: string, claims: Json): string {
    jose.encode(Jws(HS256, claims, jose.mac(key, HS256, claims)))
  }

  /** SigningMethod.Verify with a byte-slice key: only the HMAC methods accept such a key
      (hmac.Equal is plain equality here). */
  predicate SignatureValid(jose: Jose, m: SigningMethod, key: string, jws: Jws) {
    m.Hmac? && jws.signature == jose.mac(key, jws.alg, jws.payload)
  }

  type KeyFunc = SigningMethod -> Result<string, Error>

  /** The key function both call sites pass: any HMAC method gets the secret, any other method
      is refused before the secret is handed out. */
  function HmacKeyFunc(key: string, context: string): KeyFunc {
    (m: SigningMethod) => if m.Hmac? then Success(key) else Failure(Opaque(context + ": unknown signing method"))
  }

  /** The token decodes to a JWS whose method the key function accepted and whose signature is
      the MAC of its header algorithm and payload under the returned key. */
  predicate Authentic(jose: Jose, token: string, keyFunc: KeyFunc) {
    && jose.decode(token).Some?
    && var jws := jose.decode(token).value;
    && MethodByName(jws.alg).Some?
    && keyFunc(MethodByName(jws.alg).value).Success?
    && SignatureValid(jose, MethodByName(jws.alg).value, keyFunc(MethodByName(jws.alg).value).value, jws)
  }

  /** jwt.ParseWithClaims: split and decode the claims (malformed), look up `alg` and ask the key
      function (unverifiable), then run the claims' Valid and the signature check together
      (invalid). When the signature fails, its error replaces the claims error as Inner. */
  function ParseWithClaims<C>(
    jose: Jose, token: string,
    claimsOf: Json -> Result<C, Error>, validate: C -> Option<Error>, keyFunc: KeyFunc): (r: Result<C, Error>)
    ensures r.Success? ==> Authentic(jose, token, keyFunc)
    ensures r.Success? ==> claimsOf(jose.decode(token).value.payload) == Success(r.value)
    ensures r.Success? ==> validate(r.value).None?
    ensures jose.decode(token).None? ==> r.Failure? && r.error.TokenMalformed?
    ensures Authentic(jose, token, keyFunc)
            && claimsOf(jose.decode(token).value.payload).Success?
            && validate(claimsOf(jose.decode(token).value.payload).value).None?
            ==> r == claimsOf(jose.decode(token).value.payload)
  {
    match jose.decode(token)
    case None => Failure(TokenMalformed(Opaque("token contains an invalid number of segments")))
    case Some(jws) =>
      match claimsOf(jws.payload)
      case Failure(e) => Failure(TokenMalformed(e))
      case Success(c) =>
        match MethodByName(jws.alg)
        case None => Failure(TokenUnverifiable(Opaque("signing method (alg) is unavailable.")))
        case Some(m) =>
          match keyFunc(m)
          case Failure(e) => Failure(TokenUnverifiable(e))
          case Success(key) =>
            var claimsErr := validate(c);
            if !SignatureValid(jose, m, key, jws) then Failure(TokenInvalid(Opaque("signature is invalid")))
            else if claimsErr.Some? then Failure(TokenInvalid(claimsErr.value))
            else Success(c)
  }

  /** Sign-then-parse with the same key gives back the decoded claims. */
  lemma SignThenParse<C>(
    jose: Jose, key: string, payload: Json,
    claimsOf: Json -> Result<C, Error>, validate: C -> Option<Error>, context: string)
    requires Sound(jose)
    requires claimsOf(payload).Success? && validate(claimsOf(payload).value).None?
    ensures ParseWithClaims(jose, Sign(jose, key, payload), claimsOf, validate, HmacKeyFunc(key, context))
            == claimsOf(payload)
  {
    var w := Jws(HS256, payload, jose.mac(key, HS256, payload));
    assert jose.decode(jose.encode(w)) == Some(w);
  }

  /** Every HMAC method is accepted, not only the HS256 that Sign uses: a token whose `alg` is
      HS256, HS384 or HS512 and whose signature is that method's MAC under the key parses. */
  lemma AnyHmacMethodAccepted<C>(
    jose: Jose, key: string, alg: string, payload: Json,
    claimsOf: Json -> Result<C, Error>, validate: C -> Option<Error>, context: string)
    requires Sound(jose)
    requires alg in {"HS256", "HS384", "HS512"}
    requires claimsOf(payload).Success? && validate(claimsOf(payload).value).None?
    ensures ParseWithClaims(jose, jose.encode(Jws(alg, payload, jose.mac(key, alg, payload))), claimsOf, validate,
                            HmacKeyFunc(key, context))
            == claimsOf(payload)
  {
    var w := Jws(alg, payload, jose.mac(key, alg, payload));
    assert jose.decode(jose.encode(w)) == Some(w);
  }

  /** A token whose method is not HMAC is refused as unverifiable, and the outcome does not
      depend on the secret: the key is never used. */
  lemma NonHmacRejected<C>(
    jose: Jose, token: string, claimsOf: Json -> Result<C, Error>, validate: C -> Option<Error>,
    key1: string, key2: string, context: string)
    requires jose.decode(token).Some?
    requires var alg := jose.decode(token).value.alg; MethodByName(alg).Some? && !MethodByName(alg).value.Hmac?
    ensures ParseWithClaims(jose, token, claimsOf, validate, HmacKeyFunc(key1, context)).Failure?
    ensures ParseWithClaims(jose, token, claimsOf, validate, HmacKeyFunc(key1, context))
         == ParseWithClaims(jose, token, claimsOf, validate, HmacKeyFunc(key2, context))
  {
  }

  /** A signature made under one key is refused under a key whose MAC differs. */
  lemma WrongKeyRejected<C>(
    jose: Jose, key: string, other: string, payload: Json,
    claimsOf: Json -> Result<C, Error>, validate: C -> Option<Error>, context: string)
    requires Sound(jose)
    requires jose.mac(key, HS256, payload) != jose.mac(other, HS256, payload)
    ensures ParseWithClaims(jose, Sign(jose, key, payload), claimsOf, validate, HmacKeyFunc(other, context)).Failure?
  {
    var w := Jws(HS256, payload, jose.mac(key, HS256, payload));
    assert jose.decode(jose.encode(w)) == Some(w);
  }
}

=== FILE: middleware.dfy ===
/** internal/infrastructure/http/middleware: the gates in front of the object handler. A gate
    either passes the request on or answers it itself. */
module Middleware {
  import opened Wrappers
  import opened Strings
  import Http
  import Jwt
  import AccessToken

  datatype Decision = Pass | Redirect302(location: string) | Challenge401(wwwAuthenticate: string)

  /** A Skipper; `None` is a nil one. */
  type Skipper = Option<Http.Request -> bool>

  predicate Skips(skipper: Skipper, r: Http.Request) {
    skipper.Some? && skipper.value(r)
  }

  /** AuthOIDCConfig, and AuthConfig, which has the same fields. */
  datatype AuthOIDCConfig = AuthOIDCConfig(
    cookieName: string, issuer: string, audience: string, secretKey: string,
    redirectURL: string, skipper: Skipper)

  const RedirectQuery: string := "?redirect="

  /** The request carries a cookie of the configured name whose first value is an access token
      that ParseAccessToken accepts for the configured issuer, audience and secret at `now`. */
  predicate HasValidSession(conf: AuthOIDCConfig, jose: Jwt.Jose, r: Http.Request, now: AccessToken.Instant) {
    && Http.CookieNamed(r, conf.cookieName).Success?
    && AccessToken.ParseAccessToken(jose, Http.CookieNamed(r, conf.cookieName).value,
                                    conf.issuer, conf.audience, conf.secretKey, now).Success?
  }

  /** The 302 the OIDC gate answers with: the login URL with the requested path, unescaped. */
  function LoginRedirect(conf: AuthOIDCConfig, r: Http.Request): (d: Decision)
    ensures d.Redirect302? && HasPrefix(d.location, conf.redirectURL + RedirectQuery)
    ensures d.location[|conf.redirectURL + RedirectQuery|..] == r.path
  {
    Redirect302(conf.redirectURL + RedirectQuery + r.path)
  }

  /** AuthOIDCWithConfig: skipped requests pass; otherwise the request passes only with a valid
      session cookie, and every other request is redirected to login. */
  function AuthOIDC(conf: AuthOIDCConfig, jose: Jwt.Jose, r: Http.Request, now: AccessToken.Instant): (d: Decision)
    ensures d == Pass <==> Skips(conf.skipper, r) || HasValidSession(conf, jose, r, now)
    ensures d != Pass ==> d == LoginRedirect(conf, r)
    ensures !d.Challenge401?
  {
    if Skips(conf.skipper, r) then Pass
    else
      match Http.CookieNamed(r, conf.cookieName)
      case Failure(_) => LoginRedirect(conf, r)
      case Success(value) =>
        if AccessToken.ParseAccessToken(jose, value, conf.issuer, conf.audience, conf.secretKey, now).Success? then Pass
        else LoginRedirect(conf, r)
  }

  /** AuthWithConfig: a second copy of the OIDC gate under another name. */
  function Auth(conf: AuthOIDCConfig, jose: Jwt.Jose, r: Http.Request, now: AccessToken.Instant): (d: Decision)
    ensures d == Pass <==> Skips(conf.skipper, r) || HasValidSession(conf, jose, r, now)
    ensures d != Pass ==> d.Redirect302?
  {
    if conf.skipper.Some? && conf.skipper.value(r) then Pass
    else if Http.CookieNamed(r, conf.cookieName).Success?
         && AccessToken.ParseAccessToken(jose, Http.CookieNamed(r, conf.cookieName).value,
                                         conf.issuer, conf.audience, conf.secretKey, now).Success?
    then Pass
    else Redirect302(conf.redirectURL + RedirectQuery + r.path)
  }

  /** The two copies decide every request the same way. */
  lemma AuthMatchesAuthOIDC(conf: AuthOIDCConfig, jose: Jwt.Jose, r: Http.Request, now: AccessToken.Instant)
    ensures Auth(conf, jose, r, now) == AuthOIDC(conf, jose, r, now)
  {
  }

  /** A missing cookie and a cookie holding a rejected token are treated alike: adding a
      cookie whose token ParseAccessToken refuses does not change the decision. */
  lemma MissingCookieLikeRejectedToken(conf: AuthOIDCConfig, jose: Jwt.Jose, r: Http.Request, r': Http.Request,
                                       token: string, now: AccessToken.Instant)
    requires r'.path == r.path && r'.cookies == r.cookies + [Http.Cookie(conf.cookieName, token)]
    requires Http.CookieNamed(r, conf.cookieName).Failure?
    requires AccessToken.ParseAccessToken(jose, token, conf.issuer, conf.audience, conf.secretKey, now).Failure?
    requires !Skips(conf.skipper, r) && !Skips(conf.skipper, r')
    ensures AuthOIDC(conf, jose, r, now) == AuthOIDC(conf, jose, r', now) == LoginRedirect(conf, r)
  {
    assert Http.CookieNamed(r', conf.cookieName) == Success(token) by {
      Http.FirstCookieAppend(r.cookies, conf.cookieName, token);
    }
  }

  /** The gate is monotone in time: a request it lets through at `later` it also lets through
      at any earlier instant. */
  lemma ValidSessionEarlier(conf: AuthOIDCConfig, jose: Jwt.Jose, r: Http.Request,
                            earlier: AccessToken.Instant, later: AccessToken.Instant)
    requires earlier <= later
    requires HasValidSession(conf, jose, r, later)
    ensures HasValidSession(conf, jose, r, earlier)
  {
    var token := Http.CookieNamed(r, conf.cookieName).value;
    AccessToken.ParseEarlier(jose, token, conf.issuer, conf.audience, conf.secretKey, earlier, later);
  }

  datatype AuthBasicConfig = AuthBasicConfig(user: string, password: string, skipper: Skipper)

  const BasicChallenge: string := "Basic realm=\"GCS Proxy\""

  /** AuthBasicWithConfig: skipped requests pass; otherwise the request passes only with Basic
      credentials equal to the configured user and password, and every other request is
      challenged with 401. The constant-time comparison is modelled as equality. */
  function AuthBasic(conf: AuthBasicConfig, r: Http.Request, base64Decode: string -> Option<string>): (d: Decision)
    ensures d == Pass <==>
      Skips(conf.skipper, r) || Http.BasicAuth(r, base64Decode) == Some((conf.user, conf.password))
    ensures d != Pass ==> d == Challenge401(BasicChallenge)
  {
    if Skips(conf.skipper, r) then Pass
    else
      match Http.BasicAuth(r, base64Decode)
      case Some((user, pass)) =>
        if user == conf.user && pass == conf.password then Pass else Challenge401(BasicChallenge)
      case None => Challenge401(BasicChallenge)
  }

  /** A request with the configured credentials in an `Authorization: Basic` header passes. */
  lemma BasicAcceptsConfiguredCredentials(conf: AuthBasicConfig, r: Http.Request,
                                          base64Decode: string -> Option<string>, token: string)
    requires Http.HeaderGet(r, "Authorization") == Http.BasicPrefix + token
    requires base64Decode(token) == Some(conf.user + ":" + conf.password)
    requires ':' !in conf.user
    ensures AuthBasic(conf, r, base64Decode) == Pass
  {
    Http.BasicAuthRoundTrip(r, base64Decode, token, conf.user, conf.password);
  }

  /** Without an Authorization header an unskipped request is challenged, whatever the
      configured credentials are, even empty ones. */
  lemma BasicWithoutHeaderChallenged(conf: AuthBasicConfig, r: Http.Request, base64Decode: string -> Option<string>)
    requires "Authorization" !in r.header
    requires !Skips(conf.skipper, r)
    ensures AuthBasic(conf, r, base64Decode) == Challenge401(BasicChallenge)
  {
    Http.NoHeaderNoCredentials(r, base64Decode);
  }
}

=== FILE: oidc.dfy ===
/** internal/domain/model/oidc.go: provider configuration, code exchange, the handshake session
    that carries the CSRF `state` (section 10.12 of RFC 6749) and the access session minted at
    the end of the authorization-code flow (section 4.1 of RFC 6749). */
module Oidc {
  import opened Wrappers
  import opened Errors
  import opened Json
  import opened Strings
  import Jwt
  import AccessToken
  import RandomStrings
  import Config

  datatype Endpoint = Endpoint(authURL: string, tokenURL: string)

  /** What discovery (oidc.NewProvider) learns about the provider. */
  datatype Provider = Provider(issuer: string, endpoint: Endpoint)

  /** The ID-token verifier bound to the provider and the client id. */
  datatype Verifier = Verifier(provider: Provider, clientID: string)

  /** The package-level oidcProvider / oidcVerifier pair: empty until a discovery succeeds,
      then kept for the life of the process. */
  datatype ProviderCache = Uninitialised | Initialised(provider: Provider, verifier: Verifier)

  datatype OAuth2Config = OAuth2Config(
    clientID: string, clientSecret: string, endpoint: Endpoint, redirectURL: string, scopes: seq<string>)

  /** The token endpoint's answer; `idToken` is token.Extra("id_token"): absent, or any value. */
  datatype TokenResponse = TokenResponse(idToken: Option<Json>)

  /** The network and foreign libraries, as oracles. */
  datatype Upstream = Upstream(
    discover: string -> Result<Provider, Error>,                        // oidc.NewProvider
    exchange: (OAuth2Config, string) -> Result<TokenResponse, Error>,   // oauth2.Config.Exchange
    verify: (Verifier, string) -> Result<map<string, Json>, Error>)     // IDTokenVerifier.Verify, then the claims object

  const CallbackPath: string := "/_gcsproxy/oidc/callback"

  /** Explicit endpoints are configured only when both URLs are. */
  predicate HasExplicitEndpoint(conf: Config.Config) {
    conf.oidcAuthorizeURL != "" && conf.oidcTokenURL != ""
  }

  /** GetOIDCConfig, with the provider cache threaded through. Discovery runs whenever the cache is
      empty, even when explicit endpoints are configured; a failed discovery leaves it empty. */
  function GetOIDCConfig(conf: Config.Config, cache: ProviderCache, up: Upstream)
    : (r: (ProviderCache, Result<OAuth2Config, Error>))
    ensures cache.Initialised? ==> r.0 == cache && r.1.Success?
    ensures cache.Uninitialised? ==> (r.1.Success? <==> up.discover(conf.oidcProvider).Success?)
    ensures cache.Uninitialised? && up.discover(conf.oidcProvider).Success? ==>
      var p := up.discover(conf.oidcProvider).value;
      r.0 == Initialised(p, Verifier(p, conf.oidcClientID))
    ensures cache.Uninitialised? && up.discover(conf.oidcProvider).Failure? ==>
      r.0 == Uninitialised && r.1 == Failure(up.discover(conf.oidcProvider).error)
    ensures r.1.Success? ==>
      && r.1.value.clientID == conf.oidcClientID && r.1.value.clientSecret == conf.oidcClientSecret
      && r.1.value.scopes == conf.oidcScopes
    ensures r.1.Success? ==> r.0.Initialised?
    ensures r.1.Success? && HasExplicitEndpoint(conf) ==>
      r.1.value.endpoint == Endpoint(conf.oidcAuthorizeURL, conf.oidcTokenURL)
    ensures r.1.Success? && !HasExplicitEndpoint(conf) ==> r.1.value.endpoint == r.0.provider.endpoint
    ensures r.1.Success? ==> r.1.value.redirectURL == conf.baseURL + CallbackPath
  {
    var cache' :=
      if cache.Initialised? then cache
      else match up.discover(conf.oidcProvider)
        case Success(p) => Initialised(p, Verifier(p, conf.oidcClientID))
        case Failure(_) => Uninitialised;
    if cache'.Uninitialised? then
      (cache', Failure(up.discover(conf.oidcProvider).error))
    else
      var endpoint :=
        if HasExplicitEndpoint(conf) then Endpoint(conf.oidcAuthorizeURL, conf.oidcTokenURL)
        else cache'.provider.endpoint;
      (cache', Success(OAuth2Config(
        conf.oidcClientID, conf.oidcClientSecret, endpoint, conf.baseURL + CallbackPath, conf.oidcScopes)))
  }

  /** A configuration ValidateOIDC accepts always uses its explicit endpoints. */
  lemma ValidatedConfigUsesExplicitEndpoints(conf: Config.Config, cache: ProviderCache, up: Upstream)
    requires conf.authType == "oidc" && Config.ValidateOIDC(conf).None?
    ensures var r := GetOIDCConfig(conf, cache, up);
            r.1.Success? ==> r.1.value.endpoint == Endpoint(conf.oidcAuthorizeURL, conf.oidcTokenURL)
  {
  }

  /** The subject claim of a verified ID token. */
  datatype IDTokenClaims = IDTokenClaims(sub: string)

  const ExchangeContext: string := "model.ExchangeOIDCToken"

  /** ExchangeOIDCToken: code for tokens, then the ID token must be present as a string and pass
      the verifier, else ErrInvalidIDToken; the verifier's own error is not kept. */
  function ExchangeOIDCToken(conf: Config.Config, cache: ProviderCache, up: Upstream, code: string)
    : (r: (ProviderCache, Result<IDTokenClaims, Error>))
    ensures r.0 == GetOIDCConfig(conf, cache, up).0
    ensures r.1.Success? ==> r.0.Initialised?
    ensures var (c, oc) := GetOIDCConfig(conf, cache, up);
      r.1.Success? <==>
        && oc.Success? && up.exchange(oc.value, code).Success?
        && var tok := up.exchange(oc.value, code).value;
        && tok.idToken.Some? && tok.idToken.value.JString?
        && up.verify(c.verifier, tok.idToken.value.s).Success?
        && StringField(up.verify(c.verifier, tok.idToken.value.s).value, "sub").Success?
    ensures var (c, oc) := GetOIDCConfig(conf, cache, up);
      r.1.Success? ==>
        var tok := up.exchange(oc.value, code).value;
        StringField(up.verify(c.verifier, tok.idToken.value.s).value, "sub") == Success(r.1.value.sub)
  {
    var (cache', oc) := GetOIDCConfig(conf, cache, up);
    if oc.Failure? then
      (cache', Failure(Wrapped(ExchangeContext + ": failed to retrive OAuth2 config", oc.error)))
    else match up.exchange(oc.value, code)
      case Failure(e) => (cache', Failure(Wrapped(ExchangeContext + ": failed to exchange token", e)))
      case Success(tok) =>
        if !(tok.idToken.Some? && tok.idToken.value.JString?) then
          (cache', Failure(Wrapped(ExchangeContext + ": missing id token", InvalidIDToken)))
        else match up.verify(cache'.verifier, tok.idToken.value.s)
          case Failure(_) => (cache', Failure(Wrapped(ExchangeContext + ": failed to verify IDToken", InvalidIDToken)))
          case Success(payload) =>
            match StringField(payload, "sub")
            case Failure(e) => (cache', Failure(Wrapped(ExchangeContext + ": failed to parse claims", e)))
            case Success(sub) => (cache', Success(IDTokenClaims(sub)))
  }

  /** A missing or non-string id_token, or one the verifier refuses, is reported as ErrInvalidIDToken. */
  lemma BadIDTokenIsInvalidIDToken(conf: Config.Config, cache: ProviderCache, up: Upstream, code: string)
    requires var (c, oc) := GetOIDCConfig(conf, cache, up);
             && oc.Success? && up.exchange(oc.value, code).Success?
             && var tok := up.exchange(oc.value, code).value;
             (!(tok.idToken.Some? && tok.idToken.value.JString?) || up.verify(c.verifier, tok.idToken.value.s).Failure?)
    ensures var r := ExchangeOIDCToken(conf, cache, up, code); r.1.Failure? && Is(r.1.error, InvalidIDToken)
  {
  }

  /** The handshake claims: the CSRF state and where to return after login. */
  datatype OIDCSession = OIDCSession(state: string, redirectURL: string)

  function SessionToJson(s: OIDCSession): Json {
    JObject(map["State" := JString(s.state), "RedirectURL" := JString(s.redirectURL)])
  }

  function SessionFromJson(j: Json): (r: Result<OIDCSession, Error>)
    ensures j.JObject? && r.Success? && "State" in j.fields && j.fields["State"].JString? ==>
      r.value.state == j.fields["State"].s
  {
    match j
    case JNull => Success(OIDCSession("", ""))
    case JObject(f) =>
      var state :- StringField(f, "State");
      var redirect :- StringField(f, "RedirectURL");
      Success(OIDCSession(state, redirect))
    case _ => Failure(UnmarshalType("OIDCSession"))
  }

  lemma SessionRoundTrip(s: OIDCSession)
    ensures SessionFromJson(SessionToJson(s)) == Success(s)
  {
  }

  /** OIDCSession.Valid accepts every session: the handshake token carries no expiry of its own. */
  function SessionValid(s: OIDCSession): Option<Error> {
    None
  }

  const StateLength: nat := 32

  /** NewOIDCSession: refuses a redirect that does not start with "/", otherwise draws a 32-character
      state and signs the session with the JWT secret. Signing cannot fail with an HMAC key. */
  function NewOIDCSession(conf: Config.Config, jose: Jwt.Jose, redirectURL: string, draws: seq<int>)
    : (r: Result<(string, OIDCSession), Error>)
    requires |draws| == StateLength && RandomStrings.ValidDraws(draws)
    ensures r.Failure? <==> !HasPrefix(redirectURL, "/")
    ensures r.Failure? ==> Is(r.error, InvalidRedirectURL)
    ensures r.Success? ==> r.value.1.redirectURL == redirectURL && |r.value.1.state| == StateLength
    ensures r.Success? ==> forall i :: 0 <= i < StateLength ==> RandomStrings.IsAlphanumeric(r.value.1.state[i])
  {
    if !HasPrefix(redirectURL, "/") then
      Failure(Wrapped("model.NewOIDCSession: redirectURL must start with /: " + redirectURL, InvalidRedirectURL))
    else
      var sess := OIDCSession(RandomStrings.RandomString(StateLength, draws), redirectURL);
      Success((Jwt.Sign(jose, conf.jwtSecret, SessionToJson(sess)), sess))
  }

  const ParseSessionContext: string := "model.ParseOIDCSession"

  /** ParseOIDCSession: an authentic HMAC token whose payload decodes as a session. No clock is
      consulted. */
  function ParseOIDCSession(conf: Config.Config, jose: Jwt.Jose, token: string): (r: Result<OIDCSession, Error>)
    ensures r.Success? ==> Jwt.Authentic(jose, token, Jwt.HmacKeyFunc(conf.jwtSecret, ParseSessionContext))
    ensures r.Success? ==> SessionFromJson(jose.decode(token).value.payload) == Success(r.value)
    ensures Jwt.Authentic(jose, token, Jwt.HmacKeyFunc(conf.jwtSecret, ParseSessionContext))
            && SessionFromJson(jose.decode(token).value.payload).Success?
            ==> r == SessionFromJson(jose.decode(token).value.payload)
  {
    var parsed := Jwt.ParseWithClaims(jose, token, SessionFromJson, SessionValid,
                                      Jwt.HmacKeyFunc(conf.jwtSecret, ParseSessionContext));
    if parsed.Failure? then Failure(Wrapped(ParseSessionContext + ": failed to parse jwt", parsed.error))
    else parsed
  }

  /** The token NewOIDCSession returns parses back to the session it returned, at any time. */
  lemma NewThenParseSession(conf: Config.Config, jose: Jwt.Jose, redirectURL: string, draws: seq<int>)
    requires Jwt.Sound(jose)
    requires |draws| == StateLength && RandomStrings.ValidDraws(draws)
    requires HasPrefix(redirectURL, "/")
    ensures var r := NewOIDCSession(conf, jose, redirectURL, draws);
            r.Success? && ParseOIDCSession(conf, jose, r.value.0) == Success(r.value.1)
  {
    var sess := NewOIDCSession(conf, jose, redirectURL, draws).value.1;
    SessionRoundTrip(sess);
    Jwt.SignThenParse(jose, conf.jwtSecret, SessionToJson(sess), SessionFromJson, SessionValid, ParseSessionContext);
  }

  /** A handshake token signed with anything but HMAC is refused whatever the JWT secret is. */
  lemma NonHmacSessionRejected(conf: Config.Config, other: Config.Config, jose: Jwt.Jose, token: string)
    requires jose.decode(token).Some?
    requires var alg := jose.decode(token).value.alg; Jwt.MethodByName(alg).Some? && !Jwt.MethodByName(alg).value.Hmac?
    requires other == conf.(jwtSecret := other.jwtSecret)
    ensures ParseOIDCSession(conf, jose, token).Failure?
    ensures ParseOIDCSession(conf, jose, token) == ParseOIDCSession(other, jose, token)
  {
    Jwt.NonHmacRejected(jose, token, SessionFromJson, SessionValid, conf.jwtSecret, other.jwtSecret, ParseSessionContext);
  }

  /** The instant the access session expires: now plus the configured lifetime, where
      time.Duration(n) * time.Second is an int64 product that wraps around. */
  function AuthSessionExpiry(conf: Config.Config, now: AccessToken.Instant): AccessToken.Instant {
    now + Wrap64(conf.jwtExpiration * AccessToken.NanosPerSecond)
  }

  /** The claims CreateAuthSession signs. */
  function AuthSessionClaims(conf: Config.Config, id: string, now: AccessToken.Instant): AccessToken.Claims {
    AccessToken.Claims(
      issuer := conf.baseURL,
      expirationTime := AccessToken.UnixSeconds(AuthSessionExpiry(conf, now)),
      audience := [conf.baseURL],
      subject := id,
      issuedAt := AccessToken.UnixSeconds(now))
  }

  datatype AuthSession = AuthSession(token: string, expires: AccessToken.Instant)

  /** CreateAuthSession: signs the access claims and returns the token with its expiry instant. */
  function CreateAuthSession(conf: Config.Config, jose: Jwt.Jose, id: string, now: AccessToken.Instant)
    : (r: AuthSession)
    ensures AccessToken.UnixSeconds(r.expires) == AuthSessionClaims(conf, id, now).expirationTime
  {
    AuthSession(AccessToken.Sign(jose, AuthSessionClaims(conf, id, now), conf.jwtSecret), AuthSessionExpiry(conf, now))
  }

  lemma DivAddMultiple(a: int, e: int)
    ensures (a + e * AccessToken.NanosPerSecond) / AccessToken.NanosPerSecond == a / AccessToken.NanosPerSecond + e
  {
    var n := AccessToken.NanosPerSecond;
    var q, r := a / n, a % n;
    assert a == q * n + r && 0 <= r < n;
    assert a + e * n == (q + e) * n + r;
  }

  /** Without int64 overflow of the lifetime in nanoseconds, exp - iat is the configured lifetime. */
  lemma AuthSessionLifetime(conf: Config.Config, id: string, now: AccessToken.Instant)
    requires InInt64(conf.jwtExpiration * AccessToken.NanosPerSecond)
    ensures var c := AuthSessionClaims(conf, id, now);
            c.expirationTime == c.issuedAt + conf.jwtExpiration
            && c.issuer == conf.baseURL && c.audience == [conf.baseURL] && c.subject == id
  {
    DivAddMultiple(now, conf.jwtExpiration);
  }

  /** An int64 instant gives int64 time claims, with an `exp` that time.Unix represents: the
      lifetime is wrapped to an int64 first, so exp stays within about 585 years of the epoch. */
  lemma AuthSessionClaimsInRange(conf: Config.Config, id: string, now: AccessToken.Instant)
    requires InInt64(now)
    ensures AccessToken.InRange(AuthSessionClaims(conf, id, now))
    ensures AuthSessionClaims(conf, id, now).expirationTime <= AccessToken.MaxExpiry
  {
    var e := AuthSessionExpiry(conf, now);
    assert 2 * MinInt64 <= e <= 2 * MaxInt64;
    assert MinInt64 <= e / AccessToken.NanosPerSecond <= 2 * MaxInt64 / AccessToken.NanosPerSecond;
  }

  /** The minted token is accepted by ParseAccessToken with the base URL as issuer and audience
      and the JWT secret as key, at every instant before its expiry second. */
  lemma AuthSessionAccepted(conf: Config.Config, jose: Jwt.Jose, id: string, now: AccessToken.Instant, later: AccessToken.Instant)
    requires Jwt.Sound(jose)
    requires InInt64(now)
    requires AccessToken.UnixSeconds(later) < AuthSessionClaims(conf, id, now).expirationTime
    ensures AccessToken.ParseAccessToken(jose, CreateAuthSession(conf, jose, id, now).token,
                                         conf.baseURL, conf.baseURL, conf.jwtSecret, later)
            == Success(AuthSessionClaims(conf, id, now))
  {
    AuthSessionClaimsInRange(conf, id, now);
    AccessToken.SignThenParse(jose, AuthSessionClaims(conf, id, now), conf.jwtSecret, conf.baseURL, conf.baseURL, later);
  }
}

=== FILE: oidc_controller.dfy ===
/** internal/interface/http: the Login and Callback handlers of the authorization-code flow
    and their error-to-status mapping. */
module OidcController {
  import opened Wrappers
  import opened Errors
  import opened Strings
  import Http
  import Config
  import Jwt
  import Oidc
  import AccessToken
  import RandomStrings

  const SessionCookieName: string := "_gpso"
  const SessionTTL: int := 300
  const AuthCookieName: string := "_gpsa"
  const GoogleIssuer: string := "https://accounts.google.com"
  const HostedDomainDenied: string := "Access with this Google account is not allowed"

  /** What responseError writes: nothing at all, or http.Error(status, text). */
  datatype ErrorReply = NothingWritten | HttpError(status: int, text: string)

  /** responseError of the OIDC routes. The ErrInvalidRedirectURL case is empty: no status and no
      body are written, so net/http answers 200 with an empty body. */
  function ResponseError(e: Error): ErrorReply {
    if Is(e, InvalidRedirectURL) then NothingWritten
    else if Is(e, InvalidState) then HttpError(400, Message(e))
    else if Is(e, InvalidHostedDomain) then HttpError(403, HostedDomainDenied)
    else HttpError(500, Message(e))
  }

  /** The mapping decided by the sentinel at the root of the (possibly wrapped) error. */
  lemma ResponseErrorByRoot(e: Error)
    ensures Root(e) == InvalidRedirectURL ==> ResponseError(e) == NothingWritten
    ensures Root(e) == InvalidState ==> ResponseError(e) == HttpError(400, Message(e))
    ensures Root(e) == InvalidHostedDomain ==> ResponseError(e) == HttpError(403, HostedDomainDenied)
    ensures Root(e) !in {InvalidRedirectURL, InvalidState, InvalidHostedDomain} ==>
      ResponseError(e) == HttpError(500, Message(e))
  {
    IsSentinelIffRoot(e, InvalidRedirectURL);
    IsSentinelIffRoot(e, InvalidState);
    IsSentinelIffRoot(e, InvalidHostedDomain);
  }

  /** The inputs of oauth2.Config.AuthCodeURL; rendering them as a URL is not modelled. */
  datatype AuthCodeRequest = AuthCodeRequest(config: Oidc.OAuth2Config, state: string, hostedDomain: Option<string>)

  datatype Location = AuthorizeURL(request: AuthCodeRequest) | Url(url: string)

  /** How a handler ends: through responseError, or with http.Redirect(…, 302). */
  datatype Outcome = Error(reply: ErrorReply) | Found(location: Location)

  datatype Reply = Reply(cookies: seq<Http.SetCookie>, outcome: Outcome)

  /** The `hd` parameter is sent only to Google and only when a hosted domain is configured. */
  function HostedDomainParam(conf: Config.Config): (hd: Option<string>)
    ensures hd.Some? <==> conf.oidcProvider == GoogleIssuer && conf.oidcGoogleHostedDomain != ""
    ensures hd.Some? ==> hd.value == conf.oidcGoogleHostedDomain
  {
    if conf.oidcProvider == GoogleIssuer && conf.oidcGoogleHostedDomain != "" then Some(conf.oidcGoogleHostedDomain)
    else None
  }

  /** Login: provider configuration, then the handshake session for the `redirect` parameter,
      then the `_gpso` cookie and the redirect to the authorization endpoint with the session's
      state. `draws` are the 32 rand.Intn results for the state. */
  function Login(conf: Config.Config, cache: Oidc.ProviderCache, up: Oidc.Upstream, jose: Jwt.Jose,
                 r: Http.Request, draws: seq<int>): (res: (Oidc.ProviderCache, Reply))
    requires |draws| == Oidc.StateLength && RandomStrings.ValidDraws(draws)
    ensures var (cache', oc) := Oidc.GetOIDCConfig(conf, cache, up);
      && res.0 == cache'
      && (res.1.outcome.Found? <==> oc.Success? && HasPrefix(Http.QueryGet(r, "redirect"), "/"))
      && (res.1.outcome.Found? ==> res.1.outcome.location.AuthorizeURL? && res.1.outcome.location.request.config == oc.value)
    ensures res.1.outcome.Error? <==> res.1.cookies == []
    ensures !HasPrefix(Http.QueryGet(r, "redirect"), "/") ==> res.1.cookies == []
    ensures Oidc.GetOIDCConfig(conf, cache, up).1.Success? && !HasPrefix(Http.QueryGet(r, "redirect"), "/") ==>
      res.1.outcome == Error(NothingWritten)
    ensures res.1.outcome.Found? ==>
      && res.1.cookies[0].name == SessionCookieName && res.1.cookies[0].path == "/"
      && res.1.cookies[0].maxAge == SessionTTL && res.1.cookies[0].httpOnly
      && res.1.cookies[0].secure == Http.IsTLS(r) && res.1.cookies[0].expires.None?
    ensures res.1.outcome.Found? ==>
      && res.1.outcome.location.AuthorizeURL?
      && var hd := res.1.outcome.location.request.hostedDomain;
      && (hd.Some? <==> conf.oidcProvider == GoogleIssuer && conf.oidcGoogleHostedDomain != "")
      && (hd.Some? ==> hd.value == conf.oidcGoogleHostedDomain)
  {
    var (cache', oc) := Oidc.GetOIDCConfig(conf, cache, up);
    if oc.Failure? then (cache', Reply([], Error(ResponseError(oc.error))))
    else
      var created := Oidc.NewOIDCSession(conf, jose, Http.QueryGet(r, "redirect"), draws);
      if created.Failure? then (cache', Reply([], Error(ResponseError(created.error))))
      else
        var (token, sess) := created.value;
        var cookie := Http.SetCookie(SessionCookieName, token, "/", Http.IsTLS(r), SessionTTL, None, true);
        (cache', Reply([cookie], Found(AuthorizeURL(AuthCodeRequest(oc.value, sess.state, HostedDomainParam(conf))))))
  }

  /** Login binds the state it sends to the provider to the cookie it sets: the cookie parses
      to a session holding that state and the requested redirect path. */
  lemma LoginBindsStateToCookie(conf: Config.Config, cache: Oidc.ProviderCache, up: Oidc.Upstream, jose: Jwt.Jose,
                                r: Http.Request, draws: seq<int>)
    requires |draws| == Oidc.StateLength && RandomStrings.ValidDraws(draws)
    requires Jwt.Sound(jose)
    ensures var reply := Login(conf, cache, up, jose, r, draws).1;
            reply.outcome.Found? ==>
              Oidc.ParseOIDCSession(conf, jose, reply.cookies[0].value)
              == Success(Oidc.OIDCSession(reply.outcome.location.request.state, Http.QueryGet(r, "redirect")))
  {
    var redirect := Http.QueryGet(r, "redirect");
    if Oidc.GetOIDCConfig(conf, cache, up).1.Success? && HasPrefix(redirect, "/") {
      Oidc.NewThenParseSession(conf, jose, redirect, draws);
    }
  }

  /** Callback: the `_gpso` session must be present and authentic and its state must equal the
      `state` parameter before the code is exchanged; then the access session is minted into
      `_gpsa` and the browser is sent to the base URL followed by the stored redirect path. */
  function Callback(conf: Config.Config, cache: Oidc.ProviderCache, up: Oidc.Upstream, jose: Jwt.Jose,
                    r: Http.Request, now: AccessToken.Instant): (res: (Oidc.ProviderCache, Reply))
    ensures res.1.outcome.Found? <==>
      && Http.CookieNamed(r, SessionCookieName).Success?
      && var sess := Oidc.ParseOIDCSession(conf, jose, Http.CookieNamed(r, SessionCookieName).value);
      && sess.Success? && sess.value.state == Http.QueryGet(r, "state")
      && Oidc.ExchangeOIDCToken(conf, cache, up, Http.QueryGet(r, "code")).1.Success?
    ensures res.1.outcome.Error? <==> res.1.cookies == []
    ensures res.1.outcome.Found? ==>
      && Http.CookieNamed(r, SessionCookieName).Success?
      && var sess := Oidc.ParseOIDCSession(conf, jose, Http.CookieNamed(r, SessionCookieName).value);
      && sess.Success? && sess.value.state == Http.QueryGet(r, "state")
      && res.1.outcome.location == Url(conf.baseURL + sess.value.redirectURL)
    ensures res.1.outcome.Found? ==>
      && res.1.cookies[0].name == AuthCookieName && res.1.cookies[0].path == "/"
      && res.1.cookies[0].httpOnly && res.1.cookies[0].secure == Http.IsTLS(r)
      && res.1.cookies[0].maxAge == 0 && res.1.cookies[0].expires.Some?
    ensures res.1.outcome.Found? ==>
      && var (cache', exchanged) := Oidc.ExchangeOIDCToken(conf, cache, up, Http.QueryGet(r, "code"));
      && exchanged.Success? && res.0 == cache'
      && var auth := Oidc.CreateAuthSession(conf, jose, exchanged.value.sub, now);
      && res.1.cookies[0].value == auth.token && res.1.cookies[0].expires == Some(auth.expires)
  {
    match Http.CookieNamed(r, SessionCookieName)
    case Failure(e) => (cache, Reply([], Error(ResponseError(e))))
    case Success(value) =>
      match Oidc.ParseOIDCSession(conf, jose, value)
      case Failure(e) => (cache, Reply([], Error(ResponseError(e))))
      case Success(sess) =>
        if sess.state != Http.QueryGet(r, "state") then (cache, Reply([], Error(ResponseError(InvalidState))))
        else
          var (cache', exchanged) := Oidc.ExchangeOIDCToken(conf, cache, up, Http.QueryGet(r, "code"));
          if exchanged.Failure? then (cache', Reply([], Error(ResponseError(exchanged.error))))
          else
            var auth := Oidc.CreateAuthSession(conf, jose, exchanged.value.sub, now);
            var cookie := Http.SetCookie(AuthCookieName, auth.token, "/", Http.IsTLS(r), 0, Some(auth.expires), true);
            (cache', Reply([cookie], Found(Url(conf.baseURL + sess.redirectURL))))
  }

  /** A state mismatch ends in 400 "invalid state" with no cookie, and no upstream oracle is
      consulted: the reply is the same whatever discovery, exchange and verification would do. */
  lemma CallbackStateMismatch(conf: Config.Config, cache: Oidc.ProviderCache, up: Oidc.Upstream, other: Oidc.Upstream,
                              jose: Jwt.Jose, r: Http.Request, now: AccessToken.Instant)
    requires Http.CookieNamed(r, SessionCookieName).Success?
    requires var sess := Oidc.ParseOIDCSession(conf, jose, Http.CookieNamed(r, SessionCookieName).value);
             sess.Success? && sess.value.state != Http.QueryGet(r, "state")
    ensures Callback(conf, cache, up, jose, r, now) == (cache, Reply([], Error(HttpError(400, "invalid state"))))
    ensures Callback(conf, cache, up, jose, r, now) == Callback(conf, cache, other, jose, r, now)
  {
  }

  /** With the state confirmed, a failed code exchange ends in responseError of the exchange's
      error, with no cookie; the provider cache is whatever the exchange left. */
  lemma CallbackExchangeFailed(conf: Config.Config, cache: Oidc.ProviderCache, up: Oidc.Upstream, jose: Jwt.Jose,
                               r: Http.Request, now: AccessToken.Instant)
    requires Http.CookieNamed(r, SessionCookieName).Success?
    requires var sess := Oidc.ParseOIDCSession(conf, jose, Http.CookieNamed(r, SessionCookieName).value);
             sess.Success? && sess.value.state == Http.QueryGet(r, "state")
    requires Oidc.ExchangeOIDCToken(conf, cache, up, Http.QueryGet(r, "code")).1.Failure?
    ensures var (cache', exchanged) := Oidc.ExchangeOIDCToken(conf, cache, up, Http.QueryGet(r, "code"));
            Callback(conf, cache, up, jose, r, now) == (cache', Reply([], Error(ResponseError(exchanged.error))))
  {
  }

  /** Without a `_gpso` cookie, or with one that does not parse, Callback answers 500 before any
      upstream call and sets no cookie. */
  lemma CallbackWithoutSession(conf: Config.Config, cache: Oidc.ProviderCache, up: Oidc.Upstream, other: Oidc.Upstream,
                               jose: Jwt.Jose, r: Http.Request, now: AccessToken.Instant)
    requires Http.CookieNamed(r, SessionCookieName).Failure?
          || Oidc.ParseOIDCSession(conf, jose, Http.CookieNamed(r, SessionCookieName).value).Failure?
    ensures var res := Callback(conf, cache, up, jose, r, now);
            res.0 == cache && res.1.cookies == [] && res.1.outcome.Error?
            && res.1.outcome.reply.HttpError? && res.1.outcome.reply.status == 500
    ensures Callback(conf, cache, up, jose, r, now) == Callback(conf, cache, other, jose, r, now)
  {
    var c := Http.CookieNamed(r, SessionCookieName);
    if c.Failure? {
      ResponseErrorByRoot(c.error);
    } else {
      var e := Oidc.ParseOIDCSession(conf, jose, c.value).error;
      assert e.Wrapped? && Root(e) == Root(e.inner);
      var inner := e.inner;
      assert Root(inner) !in {InvalidRedirectURL, InvalidState, InvalidHostedDomain} by {
        ParseErrorRoot(conf, jose, c.value);
      }
      ResponseErrorByRoot(e);
    }
  }

  /** A session token that does not parse never fails for a reason the OIDC routes map specially. */
  lemma ParseErrorRoot(conf: Config.Config, jose: Jwt.Jose, token: string)
    requires Oidc.ParseOIDCSession(conf, jose, token).Failure?
    ensures Root(Oidc.ParseOIDCSession(conf, jose, token).error) !in {InvalidRedirectURL, InvalidState, InvalidHostedDomain}
  {
    var e := Oidc.ParseOIDCSession(conf, jose, token).error;
    var keyFunc := Jwt.HmacKeyFunc(conf.jwtSecret, Oidc.ParseSessionContext);
    var parsed := Jwt.ParseWithClaims(jose, token, Oidc.SessionFromJson, Oidc.SessionValid, keyFunc);
    assert e == Wrapped(Oidc.ParseSessionContext + ": failed to parse jwt", parsed.error);
    match jose.decode(token)
    case None =>
    case Some(jws) =>
      match Oidc.SessionFromJson(jws.payload)
      case Failure(c) =>
      case Success(sess) =>
        assert Oidc.SessionValid(sess) == None;
        match Jwt.MethodByName(jws.alg)
        case None =>
        case Some(m) =>
          if !m.Hmac? {
            assert keyFunc(m) == Failure(Opaque(Oidc.ParseSessionContext + ": unknown signing method"));
            assert Root(parsed.error) == Opaque(Oidc.ParseSessionContext + ": unknown signing method");
          } else {
            assert keyFunc(m) == Success(conf.jwtSecret);
            assert parsed.error == TokenInvalid(Opaque("signature is invalid"));
          }
  }
}

=== FILE: random.dfy ===
/** internal/util/strings.go: RandomString with the random source as an index oracle. */
module RandomStrings {

  const Digits: string := "0123456789"
  const LowerLetters: string := "abcdefghijklmnopqrstuvwxyz"
  const UpperLetters: string := "ABCDEFGHIJKLMNOPQRSTUVWXYZ"

  /** randomChars, the 62-character literal of the source, written as its three runs. */
  const RandomChars: string := Digits + LowerLetters + UpperLetters

  predicate IsAlphanumeric(c: char) {
    '0' <= c <= '9' || 'a' <= c <= 'z' || 'A' <= c <= 'Z'
  }

  /** Where an alphanumeric character sits in the alphabet: digits, then lower, then upper case. */
  function IndexOf(c: char): nat
    requires IsAlphanumeric(c)
  {
    if '0' <= c <= '9' then c as int - '0' as int
    else if 'a' <= c <= 'z' then c as int - 'a' as int + 10
    else c as int - 'A' as int + 36
  }

  lemma DigitAt(i: nat)
    requires i < 10
    ensures Digits[i] as int == '0' as int + i
  {
  }

  lemma LowerLetterAt(i: nat)
    requires i < 26
    ensures LowerLetters[i] as int == 'a' as int + i
  {
  }

  lemma UpperLetterAt(i: nat)
    requires i < 26
    ensures UpperLetters[i] as int == 'A' as int + i
  {
  }

  /** Position i of the alphabet holds the character IndexOf maps back to i. */
  lemma CharAt(i: nat)
    requires i < |RandomChars|
    ensures IsAlphanumeric(RandomChars[i]) && IndexOf(RandomChars[i]) == i
  {
    if i < 10 {
      DigitAt(i);
      assert RandomChars[i] == Digits[i];
    } else if i < 36 {
      LowerLetterAt(i - 10);
      assert RandomChars[i] == LowerLetters[i - 10];
    } else {
      UpperLetterAt(i - 36);
      assert RandomChars[i] == UpperLetters[i - 36];
    }
  }

  /** The alphabet is exactly the 62 ASCII digits and letters, each once. */
  lemma AlphabetIsAlphanumerics()
    ensures |RandomChars| == 62
    ensures forall i :: 0 <= i < |RandomChars| ==> IsAlphanumeric(RandomChars[i]) && IndexOf(RandomChars[i]) == i
    ensures forall c :: IsAlphanumeric(c) ==> IndexOf(c) < 62 && RandomChars[IndexOf(c)] == c
  {
    forall i | 0 <= i < |RandomChars|
      ensures IsAlphanumeric(RandomChars[i]) && IndexOf(RandomChars[i]) == i
    {
      CharAt(i);
    }
    forall c | IsAlphanumeric(c) ensures IndexOf(c) < 62 && RandomChars[IndexOf(c)] == c {
      var k := IndexOf(c);
      CharAt(k);
      assert IndexOf(RandomChars[k]) == k;
      if '0' <= c <= '9' {
        assert '0' <= RandomChars[k] <= '9' by { assert k < 10; DigitAt(k); assert RandomChars[k] == Digits[k]; }
      } else if 'a' <= c <= 'z' {
        assert 'a' <= RandomChars[k] <= 'z' by { LowerLetterAt(k - 10); assert RandomChars[k] == LowerLetters[k - 10]; }
      } else {
        assert 'A' <= RandomChars[k] <= 'Z' by { UpperLetterAt(k - 36); assert RandomChars[k] == UpperLetters[k - 36]; }
      }
    }
  }

  /** Each draw is a result of rand.Intn(len(randomChars)), so it lies in [0, 62). */
  predicate ValidDraws(draws: seq<int>) {
    forall i :: 0 <= i < |draws| ==> 0 <= draws[i] < |RandomChars|
  }

  /** RandomString(n): the i-th character is the alphabet entry at the i-th draw. */
  function RandomString(n: nat, draws: seq<int>): (s: string)
    requires |draws| == n && ValidDraws(draws)
    ensures |s| == n
    ensures forall i :: 0 <= i < n ==> s[i] == RandomChars[draws[i]]
    ensures forall i :: 0 <= i < n ==> IsAlphanumeric(s[i])
  {
    AlphabetIsAlphanumerics();
    if n == 0 then "" else RandomString(n - 1, draws[..n - 1]) + [RandomChars[draws[n - 1]]]
  }

  /** Every alphanumeric string of length n is produced by some sequence of draws. */
  lemma EveryAlphanumericStringReachable(s: string)
    requires forall i :: 0 <= i < |s| ==> IsAlphanumeric(s[i])
    ensures var draws := seq(|s|, i requires 0 <= i < |s| => IndexOf(s[i]));
            ValidDraws(draws) && RandomString(|s|, draws) == s
  {
    AlphabetIsAlphanumerics();
  }
}

=== FILE: server.dfy ===
/** internal/infrastructure/http/server.go: start-up checks, the gate chosen by the
    authentication mode, routing, and the object key of a path. */
module Server {
  import opened Wrappers
  import opened Errors
  import opened Strings
  import Http
  import Config
  import Jwt
  import AccessToken
  import Oidc
  import OidcController
  import Middleware
  import Delivery
  import Json
  import RandomStrings

  const ProxyPrefix: string := "/_gcsproxy"
  const LoginPath: string := "/_gcsproxy/oidc/login"
  const CallbackPath: string := "/_gcsproxy/oidc/callback"
  const NotFoundText: string := "404 page not found"

  /** RunServer refuses to start when the settings of the selected mode are incomplete. */
  function Startup(conf: Config.Config): (r: Option<Error>)
    ensures conf.authType == "oidc" ==> (r.None? <==> Config.ValidateOIDC(conf).None?)
    ensures conf.authType == "basic" ==> (r.None? <==> conf.basicAuthUser != "" && conf.basicAuthPassword != "")
    ensures conf.authType != "oidc" && conf.authType != "basic" ==> r.None?
    ensures r.Some? ==> r.value.Wrapped?
  {
    if conf.authType == "oidc" then
      match Config.ValidateOIDC(conf)
      case Some(e) => Some(Wrapped("http.RunServer: invalid OIDC config", e))
      case None => None
    else if conf.authType == "basic" then
      match Config.ValidateBasicAuth(conf)
      case Some(e) => Some(Wrapped("http.StartServer: invalid Basic Auth config", e))
      case None => None
    else None
  }

  /** The skipper both gates are given: the proxy's own routes are never gated. */
  function ProxySkipper(): Middleware.Skipper {
    Some((r: Http.Request) => HasPrefix(r.path, ProxyPrefix))
  }

  /** The OIDC gate configuration RunServer builds. */
  function OidcGate(conf: Config.Config): (g: Middleware.AuthOIDCConfig)
    ensures g.cookieName == OidcController.AuthCookieName
    ensures g.issuer == conf.baseURL && g.audience == conf.baseURL && g.secretKey == conf.jwtSecret
    ensures HasPrefix(g.redirectURL, conf.baseURL) && g.redirectURL[|conf.baseURL|..] == LoginPath
  {
    Middleware.AuthOIDCConfig(OidcController.AuthCookieName, conf.baseURL, conf.baseURL, conf.jwtSecret,
                              conf.baseURL + ProxyPrefix + "/oidc/login", ProxySkipper())
  }

  /** The Basic gate configuration RunServer builds. */
  function BasicGate(conf: Config.Config): (g: Middleware.AuthBasicConfig)
    ensures g.user == conf.basicAuthUser && g.password == conf.basicAuthPassword
  {
    Middleware.AuthBasicConfig(conf.basicAuthUser, conf.basicAuthPassword, ProxySkipper())
  }

  /** What the handlers see of the world: token encoding, the identity provider, base64, the
      bucket and the connection to the client. */
  datatype Env = Env(
    jose: Jwt.Jose, upstream: Oidc.Upstream, base64Decode: string -> Option<string>,
    bucket: Delivery.Bucket, client: Delivery.Client)

  /** The decision of the gate installed for the configured mode; with any other mode there is
      no gate. */
  function GateDecision(conf: Config.Config, env: Env, r: Http.Request, now: AccessToken.Instant): Middleware.Decision {
    if conf.authType == "oidc" then Middleware.AuthOIDC(OidcGate(conf), env.jose, r, now)
    else if conf.authType == "basic" then Middleware.AuthBasic(BasicGate(conf), r, env.base64Decode)
    else Middleware.Pass
  }

  datatype Route = LoginRoute | CallbackRoute | ProxyNotFound | ObjectRoute(key: string)

  /** The object key of a GET path: the main-page suffix is appended to a directory path when
      one is configured, then a single leading slash is dropped. */
  function ObjectKey(mainPageSuffix: string, path: string): (key: string)
    ensures var full := if |mainPageSuffix| > 0 && HasSuffix(path, "/") then path + mainPageSuffix else path;
            (HasPrefix(path, "/") ==> "/" + key == full) && (!HasPrefix(path, "/") ==> key == full)
  {
    var full := if |mainPageSuffix| > 0 && HasSuffix(path, "/") then path + mainPageSuffix else path;
    assert HasPrefix(path, "/") ==> HasPrefix(full, "/");
    TrimPrefix(full, "/")
  }

  /** A directory path names the main page inside it; only the first slash is dropped, so
      "//a/" names "/a/index.html". */
  lemma DirectoryPathNamesMainPage(mainPageSuffix: string, dir: string)
    requires |mainPageSuffix| > 0
    ensures ObjectKey(mainPageSuffix, "/" + dir + "/") == dir + "/" + mainPageSuffix
  {
    var path := "/" + dir + "/";
    assert path[|path| - 1..] == "/";
    assert HasPrefix(path, "/");
    assert (path + mainPageSuffix)[1..] == dir + "/" + mainPageSuffix;
  }

  /** Any other rooted path names the object at the rest of the path, with or without a
      configured main page. */
  lemma FilePathNamesItself(mainPageSuffix: string, name: string)
    requires !HasSuffix("/" + name, "/")
    ensures ObjectKey(mainPageSuffix, "/" + name) == name
  {
    assert HasPrefix("/" + name, "/");
    assert ("/" + name)[1..] == name;
  }

  /** Without a main-page suffix a directory path names the directory object itself. */
  lemma DirectoryPathWithoutSuffix(dir: string)
    ensures ObjectKey("", "/" + dir + "/") == dir + "/"
  {
    assert HasPrefix("/" + dir + "/", "/");
    assert ("/" + dir + "/")[1..] == dir + "/";
  }

  /** The path chi routes on: r.URL.RawPath when it is set, r.URL.Path otherwise. The gates,
      the proxy-prefix check of the object handler and the object key all use r.URL.Path. */
  function RoutePath(r: Http.Request): string {
    if r.rawPath != "" then r.rawPath else r.path
  }

  /** The router: the OIDC subrouter mounted at "/_gcsproxy/oidc" exists only in the oidc mode
      and matches its two routes on the routing path; every other path under the proxy prefix
      is answered 404, by the subrouter or by the object handler; the rest name objects. */
  function RouteOf(conf: Config.Config, r: Http.Request): (route: Route)
    ensures route.ObjectRoute? <==> !HasPrefix(r.path, ProxyPrefix)
    ensures route.ObjectRoute? ==> route.key == ObjectKey(conf.mainPageSuffix, r.path)
    ensures route.LoginRoute? <==> conf.authType == "oidc" && RoutePath(r) == LoginPath && HasPrefix(r.path, ProxyPrefix)
    ensures route.CallbackRoute? <==> conf.authType == "oidc" && RoutePath(r) == CallbackPath && HasPrefix(r.path, ProxyPrefix)
  {
    if !HasPrefix(r.path, ProxyPrefix) then ObjectRoute(ObjectKey(conf.mainPageSuffix, r.path))
    else if conf.authType == "oidc" && RoutePath(r) == LoginPath then LoginRoute
    else if conf.authType == "oidc" && RoutePath(r) == CallbackPath then CallbackRoute
    else ProxyNotFound
  }

  /** An escaped spelling of a login or callback path does not reach the controller: chi
      compares the escaped path, so "/_gcsproxy/oidc/logi%6E" is answered 404. */
  lemma EscapedOidcRouteNotFound(conf: Config.Config, r: Http.Request)
    requires r.path == LoginPath || r.path == CallbackPath
    requires r.rawPath != "" && r.rawPath != LoginPath && r.rawPath != CallbackPath
    ensures RouteOf(conf, r) == ProxyNotFound
  {
    assert HasPrefix(r.path, ProxyPrefix) by {
      assert r.path[..|ProxyPrefix|] == ProxyPrefix;
    }
  }

  datatype Answer =
    | Gated(decision: Middleware.Decision)
    | Controller(reply: OidcController.Reply)
    | NotFound(text: string)
    | Object(response: Delivery.Response)

  /** A GET request through the gate and the router. `draws` feed the state of a login; `now`
      is the clock. */
  function Handle(conf: Config.Config, cache: Oidc.ProviderCache, env: Env, r: Http.Request,
                  now: AccessToken.Instant, draws: seq<int>): (res: (Oidc.ProviderCache, Answer))
    requires |draws| == Oidc.StateLength && RandomStrings.ValidDraws(draws)
    ensures GateDecision(conf, env, r, now) != Middleware.Pass ==> res.1 == Gated(GateDecision(conf, env, r, now))
    ensures res.1.Object? <==> GateDecision(conf, env, r, now) == Middleware.Pass && !HasPrefix(r.path, ProxyPrefix)
    ensures res.1.Object? ==>
      res.1.response == Delivery.ServeFile(env.bucket, conf.notFoundPage, conf.authType,
                                           ObjectKey(conf.mainPageSuffix, r.path), env.client)
    ensures res.1.NotFound? <==>
      && GateDecision(conf, env, r, now) == Middleware.Pass && HasPrefix(r.path, ProxyPrefix)
      && !(conf.authType == "oidc" && (RoutePath(r) == LoginPath || RoutePath(r) == CallbackPath))
    ensures GateDecision(conf, env, r, now) == Middleware.Pass && HasPrefix(r.path, ProxyPrefix)
            && conf.authType == "oidc" && RoutePath(r) == LoginPath ==>
      var login := OidcController.Login(conf, cache, env.upstream, env.jose, r, draws);
      res == (login.0, Controller(login.1))
    ensures GateDecision(conf, env, r, now) == Middleware.Pass && HasPrefix(r.path, ProxyPrefix)
            && conf.authType == "oidc" && RoutePath(r) == CallbackPath ==>
      var callback := OidcController.Callback(conf, cache, env.upstream, env.jose, r, now);
      res == (callback.0, Controller(callback.1))
    ensures res.1.NotFound? ==> res.1.text == NotFoundText
    ensures res.1.Controller? ==> conf.authType == "oidc"
    ensures !res.1.Controller? ==> res.0 == cache
  {
    var decision := GateDecision(conf, env, r, now);
    if decision != Middleware.Pass then (cache, Gated(decision))
    else
      match RouteOf(conf, r)
      case LoginRoute =>
        var (cache', reply) := OidcController.Login(conf, cache, env.upstream, env.jose, r, draws);
        (cache', Controller(reply))
      case CallbackRoute =>
        var (cache', reply) := OidcController.Callback(conf, cache, env.upstream, env.jose, r, now);
        (cache', Controller(reply))
      case ProxyNotFound => (cache, NotFound(NotFoundText))
      case ObjectRoute(key) =>
        (cache, Object(Delivery.ServeFile(env.bucket, conf.notFoundPage, conf.authType, key, env.client)))
  }

  /** The proxy's own routes are never gated, in any mode: login and callback stay reachable
      without a session. */
  lemma ProxyRoutesUngated(conf: Config.Config, env: Env, r: Http.Request, now: AccessToken.Instant)
    requires HasPrefix(r.path, ProxyPrefix)
    ensures GateDecision(conf, env, r, now) == Middleware.Pass
  {
  }

  /** In the oidc mode an object is served only to a request carrying a `_gpsa` cookie that
      ParseAccessToken accepts for the base URL and the JWT secret; anything else is sent to
      login with its path. */
  lemma OidcObjectsNeedSession(conf: Config.Config, cache: Oidc.ProviderCache, env: Env, r: Http.Request,
                               now: AccessToken.Instant, draws: seq<int>)
    requires |draws| == Oidc.StateLength && RandomStrings.ValidDraws(draws)
    requires conf.authType == "oidc" && !HasPrefix(r.path, ProxyPrefix)
    ensures var answer := Handle(conf, cache, env, r, now, draws).1;
            answer.Object? <==>
              && Http.CookieNamed(r, OidcController.AuthCookieName).Success?
              && AccessToken.ParseAccessToken(env.jose, Http.CookieNamed(r, OidcController.AuthCookieName).value,
                                              conf.baseURL, conf.baseURL, conf.jwtSecret, now).Success?
    ensures var answer := Handle(conf, cache, env, r, now, draws).1;
            !answer.Object? ==> answer == Gated(Middleware.Redirect302(conf.baseURL + LoginPath + "?redirect=" + r.path))
  {
    assert conf.baseURL + ProxyPrefix + "/oidc/login" == conf.baseURL + LoginPath;
  }

  /** In the basic mode an object is served only with the configured credentials; anything
      else is challenged. */
  lemma BasicObjectsNeedCredentials(conf: Config.Config, cache: Oidc.ProviderCache, env: Env, r: Http.Request,
                                    now: AccessToken.Instant, draws: seq<int>)
    requires |draws| == Oidc.StateLength && RandomStrings.ValidDraws(draws)
    requires conf.authType == "basic" && !HasPrefix(r.path, ProxyPrefix)
    ensures var answer := Handle(conf, cache, env, r, now, draws).1;
            answer.Object? <==> Http.BasicAuth(r, env.base64Decode) == Some((conf.basicAuthUser, conf.basicAuthPassword))
    ensures var answer := Handle(conf, cache, env, r, now, draws).1;
            !answer.Object? ==> answer == Gated(Middleware.Challenge401(Middleware.BasicChallenge))
  {
  }

  /** The access session Callback mints opens the oidc gate for every object path until its
      expiry second, as long as the browser sends it as the first `_gpsa` cookie. */
  lemma MintedSessionOpensGate(conf: Config.Config, env: Env, id: string, minted: AccessToken.Instant,
                               r: Http.Request, now: AccessToken.Instant)
    requires Jwt.Sound(env.jose) && conf.authType == "oidc"
    requires Json.InInt64(minted)
    requires Http.CookieNamed(r, OidcController.AuthCookieName)
             == Success(Oidc.CreateAuthSession(conf, env.jose, id, minted).token)
    requires AccessToken.UnixSeconds(now) < Oidc.AuthSessionClaims(conf, id, minted).expirationTime
    ensures GateDecision(conf, env, r, now) == Middleware.Pass
  {
    Oidc.AuthSessionAccepted(conf, env.jose, id, minted, now);
  }

  /** Callback's cookie is such a session: once Callback succeeds, a request carrying its
      cookie value passes the gate before the cookie's expiry second. */
  lemma CallbackCookieOpensGate(conf: Config.Config, cache: Oidc.ProviderCache, env: Env, callback: Http.Request,
                                minted: AccessToken.Instant, r: Http.Request, now: AccessToken.Instant)
    requires Jwt.Sound(env.jose) && conf.authType == "oidc"
    requires var reply := OidcController.Callback(conf, cache, env.upstream, env.jose, callback, minted).1;
             && reply.outcome.Found?
             && Http.CookieNamed(r, OidcController.AuthCookieName) == Success(reply.cookies[0].value)
             && AccessToken.UnixSeconds(now) < AccessToken.UnixSeconds(reply.cookies[0].expires.value)
    requires Json.InInt64(minted)
    ensures GateDecision(conf, env, r, now) == Middleware.Pass
  {
    var code := Http.QueryGet(callback, "code");
    var id := Oidc.ExchangeOIDCToken(conf, cache, env.upstream, code).1.value.sub;
    MintedSessionOpensGate(conf, env, id, minted, r, now);
  }
}

=== FILE: strings.dfy ===
/** The few Go `strings` and `strconv` functions the proxy relies on. */
module Strings {

  /** strings.HasPrefix */
  predicate HasPrefix(s: string, prefix: string) {
    prefix <= s
  }

  /** strings.HasSuffix */
  predicate HasSuffix(s: string, suffix: string) {
    |suffix| <= |s| && s[|s| - |suffix|..] == suffix
  }

  /** strings.TrimPrefix: removes one occurrence of the prefix, if present. */
  function TrimPrefix(s: string, prefix: string): (r: string)
    ensures HasPrefix(s, prefix) ==> prefix + r == s
    ensures !HasPrefix(s, prefix) ==> r == s
  {
    if HasPrefix(s, prefix) then s[|prefix|..] else s
  }

  predicate IsDigit(c: char) {
    '0' <= c <= '9'
  }

  function DigitChar(d: nat): (c: char)
    requires d < 10
    ensures IsDigit(c) && c as int - '0' as int == d
  {
    ('0' as int + d) as char
  }

  /** strconv.FormatInt(n, 10) for a non-negative n: decimal digits without leading zeros. */
  function FormatNat(n: nat): (s: string)
    ensures |s| > 0
    ensures forall i :: 0 <= i < |s| ==> IsDigit(s[i])
    ensures s[0] == '0' ==> n == 0
    decreases n
  {
    if n < 10 then [DigitChar(n)] else FormatNat(n / 10) + [DigitChar(n % 10)]
  }

  /** The value of a string of decimal digits. */
  function ParseNat(s: string): nat
    requires forall i :: 0 <= i < |s| ==> IsDigit(s[i])
  {
    if |s| == 0 then 0
    else
      assert IsDigit(s[|s| - 1]);
      ParseNat(s[..|s| - 1]) * 10 + (s[|s| - 1] as int - '0' as int)
  }

  /** The decimal rendering of a Content-Length reads back as the same number. */
  lemma {:induction false} ParseFormatNat(n: nat)
    ensures ParseNat(FormatNat(n)) == n
  {
    if n >= 10 {
      var s := FormatNat(n);
      assert s[..|s| - 1] == FormatNat(n / 10);
      ParseFormatNat(n / 10);
    }
  }
}

=== FILE: wrappers.dfy ===
/** Failure-compatible Option and Result types used across the model. */
module Wrappers {

  datatype Option<+T> = None | Some(value: T)

  /** A Go `(value, error)` pair: exactly one of the two is meaningful. */
  datatype Result<+T, +E> = Success(value: T) | Failure(error: E) {

    predicate IsFailure() {
      Failure?
    }

    function PropagateFailure<U>(): Result<U, E>
      requires Failure?
    {
      Failure(error)
    }

    function Extract(): T
      requires Success?
    {
      value
    }
  }
}
